=== FILE: README.md ===
# E-commerce admin panel: session, guard and page logic in Dafny

This project models the logic core of a React admin panel for an online
shop. The panel talks to a public REST backend (`https://dummyjson.com`).
Staff sign in and get one of three roles: admin, sales manager or stock
manager. They can then browse, search, sort and page products. Admins and
stock managers can also delete products, and admins and sales managers can
see sales figures. The code also holds a page
for creating and editing a product, but `src/App.jsx` gives it no route, so
nothing in the application reaches it. The model describes that page as
written.

The model covers these parts:

- **The authentication provider** (`AuthContext`). It holds the session
  (user, token, `isAuthenticating`, `isInitializing`) and the two
  persisted browser-storage entries. It covers:
  - the mount-time restore;
  - `login`, with its local credential pre-check against a fixed table
    of three test users, followed by the remote login call;
  - `logout`.

  The remote reply, the storage contents and `JSON.parse`'s outcome are
  inputs.
- **The route guard** (`ProtectedRoute`). It renders nothing while
  initializing, sends users without a token to `/login`, and sends users
  whose role is not in an optional allow-list to `/dashboard`.
- **The products page** (`ProductsPage`, `Debounce`). It covers:
  - the page, sort and search state, and its transitions;
  - the exact URL fetched, with read-back lemmas;
  - the query key and what it identifies;
  - the 500 ms search debounce, modelled as a timer state machine over
    timed keystrokes and proved equal to a declarative reading;
  - who sees the management controls;
  - what a delete does to the query cache.
- **The product form page** (`ProductFormPage`). It covers:
  - the choice between create (POST) and edit (PUT);
  - the mutation variables;
  - the pre-fill query;
  - the cache invalidations, alert and navigation after a save;
  - the loading/form decision.
- **The dashboard** (`DashboardPage`). It covers:
  - the sales permission;
  - the sales query;
  - revenue as a fold over cart totals, with a loop that computes it;
  - the order count;
  - the loading/error/overview decision.
- **Cross-page facts** (`Capabilities`). After a login, the role from the
  local table decides what every page shows. The misspelled `enabled`
  option of the product list query is masked by the guard.

The data-fetching library is reduced to query keys, the `enabled` option
and prefix invalidation over a map from keys to stale flags (`QueryCache`).
Requests are values (`Http`); what came back is an input.

The code is modelled as written, including its slips:

- The product list query spells its option `enable`, so it is always
  enabled.
- Changing the search text does not reset the page, and nothing clamps the
  page when the total shrinks.
- The search term goes into the URL unencoded. An `&` in it adds a
  parameter, and a `#` starts a fragment, so the browser drops everything
  after it (the paging parameters included).
- A successful login reply without `accessToken` leaves no token in memory.
  Storage, however, keeps the text `"undefined"`, which the next reload
  adopts.
- The restore adopts the stored token before parsing the stored user, so a
  malformed user entry leaves a token with no user.
- A failed create reports "Falha ao editar o produto." ("failed to edit").
- The form's pre-fill reset never fires, so an edited product never
  reaches the form's fields (see Findings). `ProductFormPage.AfterResult`
  models this; `ProductFormPage.AfterResultIntended` is the corrected
  effect, which resets the fields once when the product arrives and keeps
  the user's edits afterwards.

The code has no table of capabilities per role: each page compares the
role text itself. Its routes pass no role lists to the guard. A malformed
stored user leaves a token without a user after the restore.

## Model

| member | source | states |
|---|---|---|
| Http.FetchError | src/pages/ProductsPage.jsx:17-19 | A fetch helper fails exactly when the response is not ok or the fetch rejected; a non-ok response yields the helper's fixed message, a rejection its own message |
| QueryCache.Invalidate | src/pages/ProductsPage.jsx:58 | Invalidating a prefix marks every cached key starting with it stale, keeps the set of cached keys, and leaves every other entry as it was |
| QueryCache.InvalidateAll | src/pages/ProductFormPage.jsx:51-54 | Invalidating several prefixes in a row marks exactly the entries that were stale or start with one of the prefixes |
| QueryCache.InvalidateIdempotent | src/pages/ProductsPage.jsx:58 | Invalidating the same prefix twice is the same as once |
| QueryCache.InvalidateSparesOtherHeads | src/pages/ProductFormPage.jsx:51 | Invalidating `['products']` never touches a key with a different first element, such as `['product', id]` or `['sales', token]` |
| QueryCache.TokenPart | src/pages/DashboardPage.jsx:20 | The token in a key is `null` exactly when there is no token, and the token text otherwise |
| AuthContext.ParseRole | src/context/AuthContext.jsx:7-11 | A role text names a role exactly when it is one of the three stored role names; no other text names any role |
| AuthContext.TestUsers | src/context/AuthContext.jsx:7-11 | The table knows exactly the three users `emilys`, `michaelw`, `sophiab`, each with the password formed by the username and "pass" |
| AuthContext.OneUserPerRole | src/context/AuthContext.jsx:7-11 | Every role belongs to exactly one user of the table |
| AuthContext.LocalCheck | src/context/AuthContext.jsx:38-39 | The pre-check passes exactly for one of the three table users with that user's password |
| AuthContext.RoleOf | src/components/ProtectedRoute.jsx:10 | `user?.role` is present exactly when there is a user carrying a role field, and is that field |
| AuthContext.Mounted | src/context/AuthContext.jsx:14-17 | The provider starts with no user, no token, not authenticating, initializing |
| AuthContext.Logout | src/context/AuthContext.jsx:68-73 | Logout clears user, token and both storage entries and leaves the progress flags alone |
| AuthContext.LogoutIdempotent | src/context/AuthContext.jsx:68-73 | Logging out twice is the same as once |
| AuthContext.Restore | src/context/AuthContext.jsx:20-33 | The mount effect adopts the stored token when both entries are truthy; it adopts the parsed user when the user entry parses and keeps the previous user when it does not; otherwise the session is untouched; initialization always ends and storage is never written |
| AuthContext.ServerMessage | src/context/AuthContext.jsx:49 | A failed login reports the reply's non-empty `message`, else the default text, and is never empty |
| AuthContext.SignedInUser | src/context/AuthContext.jsx:51-52 | The kept profile carries the local role over the reply's, drops `accessToken`, and keeps every other field of the reply unchanged, adding none |
| AuthContext.Login | src/context/AuthContext.jsx:35-66 | The remote service is called exactly when the local pre-check passes; login succeeds exactly when it passes and the reply is ok; every failure signs out and reports the invalid-credentials, server or network message; success stores the user with the table role and, when the reply carries `accessToken`, the same token in memory and storage; `isAuthenticating` is set while running and cleared after |
| AuthContext.FailedLoginEndsPriorSession | src/context/AuthContext.jsx:60-62 | A failed login ends a session that existed before it, in memory and in storage |
| AuthContext.LoginThenReload | src/context/AuthContext.jsx:54-57 | After a successful login with a non-empty token, a reload restores the same user and token |
| AuthContext.LoginWithoutTokenReloadsUndefined | src/context/AuthContext.jsx:52-57 | A successful reply without `accessToken` leaves no token in memory, but the reload adopts the stored text "undefined" |
| AuthContext.MalformedUserKeepsToken | src/context/AuthContext.jsx:24-29 | A malformed stored user still leaves the stored token adopted, with no user |
| ProtectedRoute.Admit | src/components/ProtectedRoute.jsx:7-14 | The guard renders nothing exactly while initializing, redirects to login exactly when the token is falsy, redirects to the dashboard exactly when a role list is given that does not include the user's role, and renders the page otherwise |
| ProtectedRoute.AdmitByRole | src/components/ProtectedRoute.jsx:10-12 | With a role list and a token, the page renders exactly when the user's role text parses to a listed role |
| ProtectedRoute.RestoredTokenWithoutUserIsAdmitted | src/App.jsx:22-27 | The application's routes pass no role list, so a token restored without a user is admitted |
| ProtectedRoute.EmptyStorageRedirectsToLogin | src/components/ProtectedRoute.jsx:7-8 | With nothing stored, the guard renders nothing before the restore and redirects to login after it |
| ProtectedRoute.FailedLoginRedirects | src/components/ProtectedRoute.jsx:8 | After any failed login the guard redirects to login |
| Debounce.Fire | src/pages/ProductsPage.jsx:44 | A timer fires exactly when it is due by `now`: it adopts its text and is gone; otherwise nothing changes; the typed text is never touched |
| Debounce.Type | src/pages/ProductsPage.jsx:43-46 | After a keystroke the typed text is the new value; an unchanged value only lets due timers fire; a changed value replaces any pending timer with one due 500 ms later, keeping the debounced text |
| Debounce.Run | src/pages/ProductsPage.jsx:35-36 | Before any keystroke both texts are empty with the mount timer pending; afterwards the typed text is the last keystroke's value |
| Debounce.RunInvariant | src/pages/ProductsPage.jsx:43-46 | After ordered keystrokes the typed text is the latest change, a pending timer holds that change due 500 ms after it, and the debounced text is the latest change followed by a quiet interval |
| Debounce.DebounceMeetsExpected | src/pages/ProductsPage.jsx:43-46 | The timer state machine computes the declarative reading: the latest change once quiet for 500 ms, otherwise the latest earlier change that was followed by 500 quiet ms |
| Debounce.DebounceSettles | src/pages/ProductsPage.jsx:44 | 500 ms after the last keystroke the debounced text equals the typed text |
| Debounce.TypingWithinIntervalCancels | src/pages/ProductsPage.jsx:45 | Typing "a" then "ab" 100 ms apart never adopts "a", and adopts "ab" exactly from 500 ms after it was typed |
| ProductsPage.Skip | src/pages/ProductsPage.jsx:10 | The skip count is a multiple of the page size that skips exactly the earlier pages, and is never negative from page 1 on |
| ProductsPage.FetchUrl | src/pages/ProductsPage.jsx:9-15 | Every URL lies under the products endpoint; it is the search endpoint with `q=` exactly when the term is non-empty, and the catalog with its query string otherwise |
| ProductsPage.SearchUrlReadsBack | src/pages/ProductsPage.jsx:11-15 | With a search term free of `&` and `#`, the URL is the search endpoint and reads back as exactly `q`, `limit`, `skip` with the term, 10 and the skip count |
| ProductsPage.SearchUrlIgnoresSort | src/pages/ProductsPage.jsx:11-14 | For a term free of `&` and `#`, a search URL carries no sort parameters and is the same whatever the sort column and order |
| ProductsPage.CatalogUrlReadsBack | src/pages/ProductsPage.jsx:11-15 | Without a search term and with a column name free of `&` and `#`, the URL is the catalog endpoint and reads back as exactly `limit`, `skip`, `sortBy`, `order` with their values |
| ProductsPage.AmpersandInTermAddsParameter | src/pages/ProductsPage.jsx:11 | The term is not encoded: a term `a&b` reads back as a `q` of `a` followed by an extra parameter |
| ProductsPage.HandleSort | src/pages/ProductsPage.jsx:70-78 | Sorting by the current column flips the order, another column starts ascending, the page returns to 1, and the search texts stay |
| ProductsPage.SortTwiceRestoresOrder | src/pages/ProductsPage.jsx:70-78 | Sorting twice by the current column restores the state except for the page, which is 1 |
| ProductsPage.TotalPages | src/pages/ProductsPage.jsx:80 | The page count is the ceiling of total over 10: enough pages for every product and no empty last page; 0 without data |
| ProductsPage.NextPage | src/pages/ProductsPage.jsx:81 | Next advances one page exactly when before the last page and changes nothing else |
| ProductsPage.PrevPage | src/pages/ProductsPage.jsx:82 | Previous goes back one page exactly when after page 1 and changes nothing else |
| ProductsPage.PagingStaysInRange | src/pages/ProductsPage.jsx:81-82 | Paging never goes below page 1, and a page within the page count stays within it |
| ProductsPage.NextButtonEnabledButInert | src/pages/ProductsPage.jsx:80-81 | Where the "Próxima" button is not on exactly the last page (so not disabled, line 142) but the handler's guard fails, the page is past the end and a click changes nothing; the mount state with no data yet is such a case |
| ProductsPage.NoClampAfterShrink | src/pages/ProductsPage.jsx:81 | A page past the end stays where it is: nothing clamps it |
| ProductsPage.AfterTyping | src/pages/ProductsPage.jsx:43-46 | Given every keystroke since the page mounted, typing changes only the two search texts (the page is not reset); the typed text is the last keystroke's value; the debounced text is the declarative reading of the keystrokes, which is the typed text once quiet for 500 ms |
| ProductsPage.InitialIsMountState | src/pages/ProductsPage.jsx:32-36 | The mount state's search texts are the debounce's mount texts, it is unchanged before any keystroke, and paging from it stays on pages from 1 on |
| ProductsPage.ListQuery | src/pages/ProductsPage.jsx:49-51 | The list query is keyed on the list key and, with the option misspelled, enabled regardless of the token |
| ProductsPage.ListKey | src/pages/ProductsPage.jsx:49 | The list key has six parts and starts with `'products'`, so a `['products']` invalidation reaches it (see `Capabilities.ListEntriesGoStale`) |
| ProductsPage.SameKeySameUrl | src/pages/ProductsPage.jsx:49-50 | List states that share a cache entry fetch the same URL |
| ProductsPage.ListKeyIdentifiesFetch | src/pages/ProductsPage.jsx:49-50 | Two list states share a cache entry exactly when page, column, order, debounced term and token agree; the typed text is the only thing left out |
| ProductsPage.CanManageProducts | src/pages/ProductsPage.jsx:41 | The management controls show exactly for the admin and stock manager roles |
| ProductsPage.DeleteRequest | src/pages/ProductsPage.jsx:22-26 | A delete is a DELETE of the product's own URL |
| ProductsPage.HandleDelete | src/pages/ProductsPage.jsx:55-68 | Declining the confirmation sends nothing and changes nothing; a successful delete marks every products key stale and nothing else; a failure leaves the cache and alerts the error behind "Erro ao deletar: " |
| ProductsPage.Render | src/pages/ProductsPage.jsx:84-91 | Loading exactly while pending with no data kept, the error exactly on error, otherwise the table with controls exactly for managers |
| ProductsPage.FailedFetchShowsError | src/pages/ProductsPage.jsx:18 | A failed list fetch shows its message behind "Erro: " even while the previous data is kept |
| ProductFormPage.IsEditing | src/pages/ProductFormPage.jsx:29 | The page edits exactly when the route parameter is present and non-empty |
| ProductFormPage.SaveRequest | src/pages/ProductFormPage.jsx:13-16 | Saving is a PUT of the product's URL exactly when editing, and a POST to `/products/add` otherwise |
| ProductFormPage.SaveErrorMessage | src/pages/ProductFormPage.jsx:23 | A non-ok save reports "atualizar" when editing and, as written, "editar" when creating |
| ProductFormPage.MutationVariables | src/pages/ProductFormPage.jsx:61-66 | The mutation receives token and data always, and the product id exactly when editing |
| ProductFormPage.SubmitAgreesWithPage | src/pages/ProductFormPage.jsx:61-66 | The mutation's own create-or-edit decision always agrees with the page's |
| ProductFormPage.ProductKey | src/pages/ProductFormPage.jsx:37 | The single-product key is `['product', id]`, with `null` for a missing id |
| ProductFormPage.EditFetchRequest | src/pages/ProductFormPage.jsx:7-9 | The pre-fill fetch reads the same URL the save writes, exactly for a non-empty id |
| ProductFormPage.EditQuery | src/pages/ProductFormPage.jsx:36-40 | The pre-fill query runs exactly when editing with a token |
| ProductFormPage.EditQueryReadsWhatSaveWrites | src/pages/ProductFormPage.jsx:36-40 | Whenever the pre-fill query runs, it reads the product's own entry and the very URL the save will PUT to; without a token it never runs |
| ProductFormPage.SavedPrefixes | src/pages/ProductFormPage.jsx:51-54 | A save invalidates the products lists, and the edited product's own entry exactly when editing |
| ProductFormPage.SaveSettled | src/pages/ProductFormPage.jsx:48-59 | Success marks stale exactly the products keys and, when editing, the product's entry, then navigates to the list; a failure changes no cache entry, does not navigate, and alerts the error's message |
| ProductFormPage.SaveTouchesOnlyItsProduct | src/pages/ProductFormPage.jsx:52-54 | Creating touches no single-product entry, and editing touches no other product's entry |
| ProductFormPage.PrefillEffect | src/pages/ProductFormPage.jsx:42-46 | The effect re-runs only when its source changed, and then replaces the fields exactly when the new source is present; on every other render the fields, edits included, stay |
| ProductFormPage.ResetSourceAsWritten | src/pages/ProductFormPage.jsx:36 | As written, the reset's source is always absent |
| ProductFormPage.ResetSource | src/pages/ProductFormPage.jsx:36 | The intended reset source is present exactly when the product has arrived, and is that product |
| ProductFormPage.AfterResult | src/pages/ProductFormPage.jsx:36-46 | As written, the fields never change when the query result does, because the effect reads a field the result lacks |
| ProductFormPage.AfterResultIntended | src/pages/ProductFormPage.jsx:42-46 | Corrected: the fields become the product exactly when a product arrives that differs from the previous result's; otherwise they stay, edits included |
| ProductFormPage.PrefillLostAsWritten | src/pages/ProductFormPage.jsx:42-46 | As written, a product that arrives never reaches the form: the fields keep what they held |
| ProductFormPage.PrefillShowsProduct | src/pages/ProductFormPage.jsx:42-46 | Corrected, the form shows the product when it arrives, and a later render with the same result keeps the user's edits |
| ProductFormPage.Render | src/pages/ProductFormPage.jsx:69-76 | The loading text shows exactly while editing and loading; otherwise the form shows its current fields, titled for editing exactly when editing |
| ProductFormPage.ArrivalThenEdit | src/pages/ProductFormPage.jsx:36-46 | Editing a product whose fetch arrives, then typing: as written the arrival leaves the old fields on screen, corrected it shows the product; the typed edits stay on screen either way |
| DashboardPage.CanViewSales | src/pages/DashboardPage.jsx:17 | Sales are visible exactly to the admin and sales manager roles |
| DashboardPage.SalesQuery | src/pages/DashboardPage.jsx:19-24 | The sales query is keyed on the token and runs exactly with a token and the permission |
| DashboardPage.FailedFetchShowsError | src/pages/DashboardPage.jsx:10 | A failed sales fetch shows its message behind "Erro: " to every user |
| DashboardPage.Reduce | src/pages/DashboardPage.jsx:26 | The left fold over the carts computes the sum of their totals |
| DashboardPage.TotalRevenue | src/pages/DashboardPage.jsx:26 | Revenue is the sum of the cart totals, and 0 without data or without a carts list |
| DashboardPage.TotalOrders | src/pages/DashboardPage.jsx:27 | The order count is the reply's total, and 0 when absent |
| DashboardPage.Render | src/pages/DashboardPage.jsx:29-63 | Loading exactly while pending for a permitted user, the error exactly on error, otherwise the overview with the two indicators and the chart exactly for a permitted user and the no-permission text exactly for the others |
| DashboardPage.Indicators | src/pages/DashboardPage.jsx:43-54 | The indicators show the computed revenue and the order count |
| DashboardPage.NoPermissionShowsNotice | src/pages/DashboardPage.jsx:22 | Without the permission the sales query never runs and the page shows the notice with no figures, never the loading text |
| DashboardPage.RevenueOfJoinedReplies | src/pages/DashboardPage.jsx:26 | The revenue of two cart lists joined is the sum of their revenues |
| Capabilities.LoginGrantsTableRole | src/context/AuthContext.jsx:51 | After a successful login, product management and sales visibility follow the local table's role, whatever role the reply carried |
| Capabilities.StaffSeparation | src/context/AuthContext.jsx:9-10 | The stock manager manages products but sees no sales; the sales manager the other way round |
| Capabilities.RestoredRoleIsTrusted | src/context/AuthContext.jsx:24-26 | A restored profile's role text is trusted as stored: nothing re-checks it against the table |
| Capabilities.ListEntriesGoStale | src/pages/ProductsPage.jsx:58 | Every cached product list, for any page, sort, search and token, is marked stale by a successful delete and by a successful save |
| Capabilities.MisspelledEnabledIsMasked | src/pages/ProductsPage.jsx:51 | Behind the guard, the always-enabled list query runs exactly when a token is present |

## Left out

- Network, storage and timers are not performed. Requests are values, and replies, storage contents, the outcome of `JSON.parse` and keystroke times are inputs.
- Headers and bodies are not modelled: the `Authorization: Bearer` header, the JSON content type, and the body of the login and save requests.
- The data-fetching library is not modelled beyond keys, `enabled` and prefix invalidation. Left out are its scheduling, retries, `placeholderData` (reduced to a "data kept" flag) and the dashboard's 30-second `refetchInterval`.
- The `isFetching` flag is left out. It dims the page and also disables both paging buttons while a fetch runs (src/pages/ProductsPage.jsx:141-142); `NextPage` and `PrevPage` model the handlers, not the disabled buttons. The "Anterior" button is also disabled on page 1, which `PrevPage`'s own guard repeats. "Próxima" is disabled only on exactly the last page (src/pages/ProductsPage.jsx:142), while `NextPage`'s guard (:81) is stricter: with no data yet (0 pages) or on a page past the end, the button is enabled and a click does nothing (`ProductsPage.NextButtonEnabledButInert`).
- ProductsPage.SearchUrlReadsBack: the URL reader splits on `?`, `&` and `=` only. It models no fragments (hence terms with `#` are excluded), and no `+` or percent decoding, so a term with `+` or `%` reads back raw while the server would decode it.
- Debounce.Fire: a timer due at the same millisecond as a keystroke fires before the keystroke is handled. The browser does not fix the order of those two tasks; the model picks one.
- The pre-fill fetch's error message is never shown: the form page has no error branch for the pre-fill query.
- The dashboard greeting, the `pt-BR` number formatting of revenue, the chart's drawing and floating-point cart totals are left out; totals are integers.
- The React components outside the core are not part of this model: the sidebar, the modal, the KPI widget, the sales chart, the login page, the orders page, and the form's field validation.
- Navigation after login, alerts, confirmation dialogs and `console.error` are effects. They are modelled only as returned values (navigation target, alert text, a confirmation answer) where a page decides them.
- Routing in `src/App.jsx` is used only as a fact: the guarded routes pass no role list. The form page has no route there, so nothing in the application reaches it; the model describes it as written.
- AuthContext.Restore: a stored user that parses to JSON which is not an object (a number, `null`) is not distinguished from a valid profile; `StoredUser` only has absent, malformed and parsed-object cases.
- AuthContext.Login: a JavaScript property lookup such as `TEST_USERS["toString"]` is modelled as an unknown user. It fails the password check the same way.
- AuthContext.RoleOf: profile fields are all text, so a non-string `role` value is not modelled.

## Findings

| source | as written | input that shows it | evidently intended | confidence | as-written member | corrected member |
|---|---|---|---|---|---|---|
| src/pages/ProductFormPage.jsx:36-46 | The pre-fill effect resets the form from `initialData`, a field the query result does not have. | Editing a product whose fetch returns `{ "title": "Phone" }` while the fields are empty: the fields stay empty. | Reset the form from the query's `data`. | high; not executed | ProductFormPage.AfterResult | ProductFormPage.AfterResultIntended |

=== FILE: auth_context.dfy ===
/** The session held by the authentication provider: who is signed in, their
    bearer token, the two progress flags, and the two-key browser storage
    (`token`, `user`) the session is persisted in. Every effect of the source
    (the login request, storage, JSON parsing) is an input here. */
module AuthContext {
  import opened Common

  /** The three staff roles of the panel. */
  datatype Role = Admin | SalesManager | StockManager

  /** The text a role is stored and compared as. */
  function RoleName(r: Role): string {
    match r
    case Admin => "admin"
    case SalesManager => "sales_manager"
    case StockManager => "stock_manager"
  }

  /** The role a text names, if any. */
  function ParseRole(s: string): (r: Option<Role>)
    ensures r.Some? ==> s == RoleName(r.value)
    ensures r.None? ==> forall q :: RoleName(q) != s
  {
    if s == "admin" then Some(Admin)
    else if s == "sales_manager" then Some(SalesManager)
    else if s == "stock_manager" then Some(StockManager)
    else None
  }

  /** An entry of the fixed local credential table. */
  datatype TestUser = TestUser(password: string, role: Role)

  /** The local credential table (`TEST_USERS`). */
  function TestUsers(username: string): (e: Option<TestUser>)
    ensures e.Some? <==> username in {"emilys", "michaelw", "sophiab"}
    ensures e.Some? ==> e.value.password == username + "pass"
  {
    if username == "emilys" then Some(TestUser("emilyspass", Admin))
    else if username == "michaelw" then Some(TestUser("michaelwpass", SalesManager))
    else if username == "sophiab" then Some(TestUser("sophiabpass", StockManager))
    else None
  }

  /** The table gives each role to exactly one user. */
  lemma OneUserPerRole(r: Role)
    ensures exists u :: TestUsers(u).Some? && TestUsers(u).value.role == r
    ensures forall u, v ::
              (TestUsers(u).Some? && TestUsers(v).Some? &&
               TestUsers(u).value.role == r && TestUsers(v).value.role == r) ==> u == v
  {
    match r
    case Admin => assert TestUsers("emilys").Some?;
    case SalesManager => assert TestUsers("michaelw").Some?;
    case StockManager => assert TestUsers("sophiab").Some?;
  }

  /** The local pre-check: the username is in the table with this password. */
  function LocalCheck(username: string, password: string): (ok: bool)
    ensures ok <==> username in {"emilys", "michaelw", "sophiab"} && password == username + "pass"
  {
    TestUsers(username).Some? && TestUsers(username).value.password == password
  }

  /** A user profile as a JSON object: field name to field text. */
  type User = map<string, string>

  /** `user?.role`: absent when there is no user or it has no role field. */
  function RoleOf(user: Option<User>): (r: Option<string>)
    ensures r.Some? <==> user.Some? && "role" in user.value
    ensures r.Some? ==> r.value == user.value["role"]
  {
    if user.Some? && "role" in user.value then Some(user.value["role"]) else None
  }

  /** The `user` storage entry as `JSON.parse` sees it: absent or empty
      (`Missing`), present but not JSON (`Malformed`), or a parsed profile. */
  datatype StoredUser = Missing | Malformed | Valid(profile: User)

  /** The two persisted entries. A missing `token` entry is `None`. */
  datatype Storage = Storage(token: Option<string>, user: StoredUser)

  const ClearedStorage: Storage := Storage(None, Missing)

  datatype Session = Session(
    user: Option<User>,
    token: Option<string>,
    isAuthenticating: bool,
    isInitializing: bool)

  /** The provider's whole state: memory and storage. */
  datatype Auth = Auth(session: Session, storage: Storage)

  /** The provider as first rendered, before the mount effect has run. */
  function Mounted(storage: Storage): (a: Auth)
    ensures a.session.isInitializing && !a.session.isAuthenticating
    ensures a.session.user.None? && a.session.token.None?
    ensures a.storage == storage
  {
    Auth(Session(None, None, false, true), storage)
  }

  /** No user, no token, nothing persisted. */
  predicate SignedOut(a: Auth) {
    a.session.user.None? && a.session.token.None? && a.storage == ClearedStorage
  }

  /** `logout`: clears user, token and both storage entries; the progress
      flags are left alone. */
  function Logout(a: Auth): (r: Auth)
    ensures SignedOut(r)
    ensures r.session.isAuthenticating == a.session.isAuthenticating
    ensures r.session.isInitializing == a.session.isInitializing
  {
    Auth(a.session.(user := None, token := None), ClearedStorage)
  }

  lemma LogoutIdempotent(a: Auth)
    ensures Logout(Logout(a)) == Logout(a)
  {
  }

  /** The mount effect adopts the stored session only when both entries are truthy. */
  predicate RestoreAdopts(storage: Storage) {
    Truthy(storage.token) && !storage.user.Missing?
  }

  /** The mount effect. The token is adopted before the user is parsed, so a
      malformed stored user leaves the token set and the user untouched (the
      parse error is caught and logged). `isInitializing` ends false on every path. */
  function Restore(a: Auth): (r: Auth)
    ensures !r.session.isInitializing
    ensures r.storage == a.storage
    ensures r.session.isAuthenticating == a.session.isAuthenticating
    ensures RestoreAdopts(a.storage) ==> r.session.token == a.storage.token
    ensures RestoreAdopts(a.storage) && a.storage.user.Valid? ==>
              r.session.user == Some(a.storage.user.profile)
    ensures RestoreAdopts(a.storage) && a.storage.user.Malformed? ==>
              r.session.user == a.session.user
    ensures !RestoreAdopts(a.storage) ==> r.session == a.session.(isInitializing := false)
  {
    var s := a.session;
    var s' :=
      if !RestoreAdopts(a.storage) then s
      else match a.storage.user
        case Valid(u) => s.(token := a.storage.token, user := Some(u))
        case _ => s.(token := a.storage.token);
    Auth(s'.(isInitializing := false), a.storage)
  }

  /** What the login request came to: a response with its `ok` flag and its
      JSON body, or a failure to get one (network error, body not JSON). */
  datatype Remote = Reply(ok: bool, body: User) | Unreachable(error: string)

  datatype LoginResult = LoggedIn | LoginFailed(message: string)

  /** One call of `login`: the state while it runs, whether the remote
      service was contacted, the state afterwards, and how it ended (the
      message is the one the source throws to the login page). */
  datatype LoginRun = LoginRun(running: Auth, remoteCalled: bool, final: Auth, result: LoginResult)

  const InvalidCredentials: string := "Credenciais inválidas."
  const DefaultLoginError: string := "Falha no login."

  /** `data.message || "Falha no login."`. */
  function ServerMessage(body: User): (m: string)
    ensures m != ""
    ensures "message" in body && body["message"] != "" ==> m == body["message"]
    ensures !("message" in body && body["message"] != "") ==> m == DefaultLoginError
  {
    if "message" in body && body["message"] != "" then body["message"] else DefaultLoginError
  }

  /** The profile kept after a successful login: the response body with the
      local role written over any `role` it carried, and without `accessToken`. */
  function SignedInUser(body: User, role: Role): (u: User)
    ensures RoleOf(Some(u)) == Some(RoleName(role))
    ensures "accessToken" !in u
    ensures forall f :: f in body && f != "role" && f != "accessToken" ==> f in u && u[f] == body[f]
    ensures forall f :: f in u ==> f in body || f == "role"
  {
    body["role" := RoleName(role)] - {"accessToken"}
  }

  /** `login(username, password)` against a given remote outcome. */
  function Login(a: Auth, username: string, password: string, remote: Remote): (r: LoginRun)
    ensures r.running == a.(session := a.session.(isAuthenticating := true))
    ensures !r.final.session.isAuthenticating
    ensures r.final.session.isInitializing == a.session.isInitializing
    ensures r.remoteCalled <==> LocalCheck(username, password)
    ensures !LocalCheck(username, password) ==> r.result == LoginFailed(InvalidCredentials)
    ensures r.result == LoggedIn <==> LocalCheck(username, password) && remote.Reply? && remote.ok
    ensures r.result.LoginFailed? ==> SignedOut(r.final)
    ensures LocalCheck(username, password) && remote.Reply? && !remote.ok ==>
              r.result == LoginFailed(ServerMessage(remote.body))
    ensures LocalCheck(username, password) && remote.Unreachable? ==>
              r.result == LoginFailed(remote.error)
    ensures r.result == LoggedIn ==>
              && r.final.session.user == Some(SignedInUser(remote.body, TestUsers(username).value.role))
              && r.final.storage.user == Valid(r.final.session.user.value)
    ensures r.result == LoggedIn && "accessToken" in remote.body ==>
              r.final.session.token == r.final.storage.token == Some(remote.body["accessToken"])
  {
    var running := a.(session := a.session.(isAuthenticating := true));
    var entry := TestUsers(username);
    if entry.None? || entry.value.password != password then
      var out := Logout(running);
      LoginRun(running, false, out.(session := out.session.(isAuthenticating := false)),
               LoginFailed(InvalidCredentials))
    else
      var failed := (msg: string) =>
        var out := Logout(running);
        LoginRun(running, true, out.(session := out.session.(isAuthenticating := false)),
                 LoginFailed(msg));
      match remote
      case Unreachable(e) => failed(e)
      case Reply(ok, body) =>
        if !ok then failed(ServerMessage(body))
        else
          var user := SignedInUser(body, entry.value.role);
          // `setToken(undefined)` when the body has no token, while
          // `localStorage.setItem` stores the text "undefined".
          var memToken := if "accessToken" in body then Some(body["accessToken"]) else None;
          var storedToken := if "accessToken" in body then body["accessToken"] else "undefined";
          var session := running.session.(user := Some(user), token := memToken, isAuthenticating := false);
          LoginRun(running, true, Auth(session, Storage(Some(storedToken), Valid(user))), LoggedIn)
  }

  /** A failed login ends any session that existed before it, in memory and in storage. */
  lemma FailedLoginEndsPriorSession(a: Auth, username: string, password: string, remote: Remote)
    requires a.session.token.Some? && a.storage.token.Some?
    requires !(LocalCheck(username, password) && remote.Reply? && remote.ok)
    ensures var r := Login(a, username, password, remote);
            r.final.session.token.None? && r.final.session.user.None? && r.final.storage == ClearedStorage
  {
  }

  /** Persistence round trip: after a successful login with a non-empty token,
      reloading the page restores the same user and token. */
  lemma LoginThenReload(a: Auth, username: string, password: string, remote: Remote)
    requires Login(a, username, password, remote).result == LoggedIn
    requires "accessToken" in remote.body && remote.body["accessToken"] != ""
    ensures var r := Login(a, username, password, remote);
            var reloaded := Restore(Mounted(r.final.storage));
            reloaded.session.user == r.final.session.user
            && reloaded.session.token == r.final.session.token
            && !reloaded.session.isInitializing
  {
  }

  /** As written, a successful reply without `accessToken` leaves no token in
      memory but the text "undefined" in storage, which the next reload adopts. */
  lemma LoginWithoutTokenReloadsUndefined(a: Auth, username: string, password: string, remote: Remote)
    requires Login(a, username, password, remote).result == LoggedIn
    requires "accessToken" !in remote.body
    ensures var r := Login(a, username, password, remote);
            r.final.session.token.None?
            && Restore(Mounted(r.final.storage)).session.token == Some("undefined")
  {
  }

  /** As written, a malformed stored user still yields a token with no user. */
  lemma MalformedUserKeepsToken(t: string)
    requires t != ""
    ensures var r := Restore(Mounted(Storage(Some(t), Malformed)));
            r.session.token == Some(t) && r.session.user.None?
  {
  }
}

=== FILE: capabilities.dfy ===
/** What each page lets a signed-in user do, read off the role the login
    wrote into the session. The pages compare role texts independently;
    these lemmas tie those comparisons back to the local credential table. */
module Capabilities {
  import opened Common
  import opened AuthContext
  import ProductsPage
  import DashboardPage
  import ProtectedRoute
  import ProductFormPage
  import opened Http
  import opened QueryCache

  /** After a successful login, the product controls and the sales figures
      follow the role from the local table, whatever role the remote
      service's reply carried. */
  lemma LoginGrantsTableRole(a: Auth, username: string, password: string, remote: Remote)
    requires Login(a, username, password, remote).result == LoggedIn
    ensures var u := Login(a, username, password, remote).final.session.user;
            var role := TestUsers(username).value.role;
            && (ProductsPage.CanManageProducts(u) <==> role == Admin || role == StockManager)
            && (DashboardPage.CanViewSales(u) <==> role == Admin || role == SalesManager)
  {
    var r := Login(a, username, password, remote);
    var role := TestUsers(username).value.role;
    assert RoleOf(r.final.session.user) == Some(RoleName(role));
    assert ParseRole(RoleName(role)) == Some(role);
  }

  /** The stock manager of the table manages products but sees no sales;
      the sales manager the other way round. */
  lemma StaffSeparation(a: Auth, remote: Remote)
    requires remote.Reply? && remote.ok
    ensures var u := Login(a, "sophiab", "sophiabpass", remote).final.session.user;
            ProductsPage.CanManageProducts(u) && !DashboardPage.CanViewSales(u)
    ensures var u := Login(a, "michaelw", "michaelwpass", remote).final.session.user;
            !ProductsPage.CanManageProducts(u) && DashboardPage.CanViewSales(u)
  {
    LoginGrantsTableRole(a, "sophiab", "sophiabpass", remote);
    LoginGrantsTableRole(a, "michaelw", "michaelwpass", remote);
  }

  /** A session restored from storage grants what the stored profile's role
      text grants: nothing is re-checked against the table on reload. */
  lemma RestoredRoleIsTrusted(t: string, profile: User)
    requires t != "" && "role" in profile && profile["role"] == "admin"
    ensures var u := Restore(Mounted(Storage(Some(t), Valid(profile)))).session.user;
            ProductsPage.CanManageProducts(u) && DashboardPage.CanViewSales(u)
  {
  }

  /** The list query's misspelled `enabled` option makes no difference in
      the application: the page renders only behind the guard, which admits
      nobody without a truthy token, so the query runs exactly when a
      correctly spelled option would have let it. */
  lemma MisspelledEnabledIsMasked(a: Auth, roles: Option<seq<Role>>, st: ProductsPage.ListState)
    requires ProtectedRoute.Guard(a, roles) == ProtectedRoute.RenderChildren
    ensures ProductsPage.ListQuery(st, a.session.token).enabled <==> Truthy(a.session.token)
  {
  }

  /** Every cached product list, whatever its page, sort, search and token,
      is marked stale by a successful delete and by a successful save. */
  lemma ListEntriesGoStale(c: Cache, st: ProductsPage.ListState, token: Option<string>,
                           productId: int, routeId: Option<string>)
    requires ProductsPage.ListKey(st, token) in c
    ensures ProductsPage.HandleDelete(c, true, productId, Responded(true)).cache[ProductsPage.ListKey(st, token)]
    ensures ProductFormPage.SaveSettled(c, routeId, Responded(true)).cache[ProductsPage.ListKey(st, token)]
  {
  }
}

=== FILE: common.dfy ===
/** Small shared vocabulary: optional values and JavaScript truthiness of
    the optional strings (tokens, route parameters) the panel tests with `!!x`. */
module Common {

  /** `null`/`undefined` in the source become `None`. */
  datatype Option<T> = None | Some(value: T) {

    /** The value, or `default` when absent (the source's `x || default` on
        values that are never falsy otherwise). */
    function GetOr(default: T): T {
      match this
      case Some(v) => v
      case None => default
    }
  }

  /** JavaScript truthiness of an optional string: `null`, `undefined` and
      the empty string are falsy, every other string is truthy. */
  predicate Truthy(s: Option<string>) {
    s.Some? && s.value != ""
  }
}

=== FILE: dashboard_page.dfy ===
/** The dashboard: sales figures for the roles allowed to see them. */
module DashboardPage {
  import opened Common
  import opened Http
  import opened QueryCache
  import opened AuthContext

  const SalesFailedMessage: string := "Falha ao buscar dados de vendas."
  const NoPermissionMessage: string := "Você não tem permissão para ver os dados do gráfico."

  /** Admins and sales managers see sales, compared on the role text. */
  function CanViewSales(user: Option<User>): (b: bool)
    ensures b <==> RoleOf(user).Some? && ParseRole(RoleOf(user).value) in {Some(Admin), Some(SalesManager)}
  {
    RoleOf(user) == Some("admin") || RoleOf(user) == Some("sales_manager")
  }

  /** The sales query: keyed on the token, run only with a token and the
      permission. */
  function SalesQuery(token: Option<string>, user: Option<User>): (q: Query)
    ensures q.key == [KStr("sales"), TokenPart(token)]
    ensures q.enabled <==> Truthy(token) && CanViewSales(user)
  {
    Query([KStr("sales"), TokenPart(token)], Truthy(token) && CanViewSales(user))
  }

  /** A failed sales fetch shows its message behind "Erro: ", to every
      user: the error branch does not look at the permission. */
  lemma FailedFetchShowsError(response: Response, data: Option<SalesData>, user: Option<User>)
    requires response != Responded(true)
    ensures var e := FetchError(response, SalesFailedMessage);
            e.Some? && Render(Errored(e.value), data, user) == Failed("Erro: " + e.value)
  {
  }

  /** One cart of the reply; only its total is read. */
  datatype Cart = Cart(total: int)

  /** The reply body, with the fields the page reads possibly absent. */
  datatype SalesData = SalesData(carts: Option<seq<Cart>>, total: Option<int>)

  /** The sum of the cart totals, first cart first. */
  function Sum(carts: seq<Cart>): int
    decreases |carts|
  {
    if |carts| == 0 then 0 else carts[0].total + Sum(carts[1..])
  }

  lemma {:induction false} SumAppend(a: seq<Cart>, b: seq<Cart>)
    ensures Sum(a + b) == Sum(a) + Sum(b)
    decreases |a|
  {
    if |a| == 0 {
      assert a + b == b;
    } else {
      assert (a + b)[1..] == a[1..] + b;
      SumAppend(a[1..], b);
    }
  }

  /** `carts.reduce((sum, cart) => sum + cart.total, 0)`: the left fold
      computes the sum. */
  method Reduce(carts: seq<Cart>) returns (acc: int)
    ensures acc == Sum(carts)
  {
    acc := 0;
    var i := 0;
    while i < |carts|
      invariant 0 <= i <= |carts|
      invariant acc == Sum(carts[..i])
    {
      SumAppend(carts[..i], [carts[i]]);
      assert carts[..i + 1] == carts[..i] + [carts[i]];
      acc := acc + carts[i].total;
      i := i + 1;
    }
    assert carts[..i] == carts;
  }

  /** `salesData?.carts?.reduce(…) || 0`: the sum, or 0 when there is no
      data or no carts list. */
  function TotalRevenue(data: Option<SalesData>): (r: int)
    ensures data.Some? && data.value.carts.Some? ==> r == Sum(data.value.carts.value)
    ensures data.None? || data.value.carts.None? ==> r == 0
  {
    if data.Some? && data.value.carts.Some? then Sum(data.value.carts.value) else 0
  }

  /** `salesData?.total || 0`. */
  function TotalOrders(data: Option<SalesData>): (r: int)
    ensures data.Some? && data.value.total.Some? ==> r == data.value.total.value
    ensures data.None? || data.value.total.None? ==> r == 0
  {
    if data.Some? && data.value.total.Some? then data.value.total.value else 0
  }

  /** The two figures shown as indicators. */
  datatype Kpis = Kpis(revenue: int, orders: int)

  /** The page's body. The overview holds the two indicators and the chart's
      carts for a permitted user, and the no-permission text otherwise. */
  datatype View = Loading | Failed(message: string) | Overview(kpis: Option<Kpis>, chart: Option<seq<Cart>>, notice: Option<string>)

  /** What the page renders for the sales query's status and data. */
  function Render(status: Status, data: Option<SalesData>, user: Option<User>): (v: View)
    ensures v == Loading <==> status == Pending && CanViewSales(user)
    ensures v.Failed? <==> status.Errored?
    ensures v.Failed? ==> v.message == "Erro: " + status.message
    ensures v.Overview? ==> (v.kpis.Some? <==> CanViewSales(user))
    ensures v.Overview? ==> (v.chart.Some? <==> CanViewSales(user)) && (v.notice.Some? <==> !CanViewSales(user))
    ensures v.Overview? && v.kpis.Some? ==> v.kpis.value == Kpis(TotalRevenue(data), TotalOrders(data))
    ensures v.Overview? && v.notice.Some? ==> v.notice.value == NoPermissionMessage
  {
    var can := CanViewSales(user);
    if status == Pending && can then Loading
    else if status.Errored? then Failed("Erro: " + status.message)
    else
      var chart := if data.Some? && data.value.carts.Some? then data.value.carts.value else [];
      Overview(if can then Some(Kpis(TotalRevenue(data), TotalOrders(data))) else None,
               if can then Some(chart) else None,
               if can then None else Some(NoPermissionMessage))
  }

  /** The indicator figures are exactly what `Reduce` computes and the
      reported order count. */
  method Indicators(data: Option<SalesData>) returns (k: Kpis)
    ensures k == Kpis(TotalRevenue(data), TotalOrders(data))
  {
    var revenue := 0;
    if data.Some? && data.value.carts.Some? {
      revenue := Reduce(data.value.carts.value);
    }
    k := Kpis(revenue, TotalOrders(data));
  }

  /** A user without the permission never sees the loading text: the query
      is disabled, so it stays pending, and the page shows the overview
      without figures and with the notice. */
  lemma NoPermissionShowsNotice(token: Option<string>, user: Option<User>, data: Option<SalesData>)
    requires !CanViewSales(user)
    ensures !SalesQuery(token, user).enabled
    ensures Render(Pending, data, user) == Overview(None, None, Some(NoPermissionMessage))
  {
  }

  /** The revenue adds up over carts appended to the reply. */
  lemma RevenueOfJoinedReplies(a: seq<Cart>, b: seq<Cart>, orders: Option<int>)
    ensures TotalRevenue(Some(SalesData(Some(a + b), orders)))
         == TotalRevenue(Some(SalesData(Some(a), orders))) + TotalRevenue(Some(SalesData(Some(b), orders)))
  {
    SumAppend(a, b);
  }
}

=== FILE: debounce.dfy ===
/** The search box of the products page: the typed text is kept at once,
    while the text used for fetching follows it only after 500 ms without a
    change. The source does this with an effect keyed on the typed text that
    sets a 500 ms timer and clears the previous one when it re-runs; time is
    an explicit input here, and keystrokes carry the moment they happened. */
module Debounce {
  import opened Common

  /** The quiet interval, in milliseconds. */
  const Delay: int := 500

  /** The input's value after a keystroke, and when it happened (ms since mount). */
  datatype Keystroke = Keystroke(at: int, value: string)

  /** A scheduled adoption of `value` as the debounced text. */
  datatype Timer = Timer(fireAt: int, value: string)

  datatype SearchState = SearchState(term: string, debounced: string, pending: Option<Timer>)

  /** Keystrokes arrive in time order. */
  predicate Ordered(ks: seq<Keystroke>) {
    forall i :: 0 < i < |ks| ==> ks[i - 1].at <= ks[i].at
  }

  /** Mount, at time 0: both texts empty, and the effect's first run has
      scheduled the adoption of the empty text. */
  const Start: SearchState := SearchState("", "", Some(Timer(Delay, "")))

  /** Lets the pending timer fire if its time has come by `now`. */
  function Fire(s: SearchState, now: int): (r: SearchState)
    ensures r.term == s.term
    ensures r.pending.None? ==> r.debounced == (if s.pending.Some? then s.pending.value.value else s.debounced)
    ensures r.pending.Some? ==> r == s
    ensures r.pending.None? <==> s.pending.None? || s.pending.value.fireAt <= now
  {
    if s.pending.Some? && s.pending.value.fireAt <= now
    then s.(debounced := s.pending.value.value, pending := None)
    else s
  }

  /** A keystroke: timers due by then fire first; then, if the text changed,
      the effect re-runs, clearing any pending timer and scheduling a new one.
      An unchanged text does not re-run the effect. */
  function Type(s: SearchState, k: Keystroke): (r: SearchState)
    ensures r.term == k.value
    ensures k.value == s.term ==> r == Fire(s, k.at)
    ensures k.value != s.term ==>
              r.pending == Some(Timer(k.at + Delay, k.value)) && r.debounced == Fire(s, k.at).debounced
  {
    var s1 := Fire(s, k.at);
    if k.value == s1.term then s1
    else s1.(term := k.value, pending := Some(Timer(k.at + Delay, k.value)))
  }

  /** The state after a sequence of keystrokes. */
  function Run(ks: seq<Keystroke>): (s: SearchState)
    ensures |ks| == 0 ==> s == Start
    ensures |ks| > 0 ==> s.term == ks[|ks| - 1].value
    decreases |ks|
  {
    if |ks| == 0 then Start else Type(Run(ks[..|ks| - 1]), ks[|ks| - 1])
  }

  /** The debounced text observed at `now`. */
  function DebouncedAt(ks: seq<Keystroke>, now: int): string {
    Fire(Run(ks), now).debounced
  }

  // ---- The declarative reading ----

  /** The runs of the effect: the mount run with the empty text, then every
      keystroke that changed the text. */
  function Changes(ks: seq<Keystroke>): (cs: seq<Keystroke>)
    ensures |cs| > 0 && cs[0] == Keystroke(0, "")
    ensures |cs| <= |ks| + 1
    decreases |ks|
  {
    if |ks| == 0 then [Keystroke(0, "")]
    else
      var cs := Changes(ks[..|ks| - 1]);
      var k := ks[|ks| - 1];
      if k.value == cs[|cs| - 1].value then cs else cs + [k]
  }

  /** The latest change before index `n` that was followed by `Delay` ms
      without a further change; the empty text when there is none. */
  function Adopted(cs: seq<Keystroke>, n: nat): string
    requires n < |cs|
    decreases n
  {
    if n == 0 then ""
    else if cs[n - 1].at + Delay <= cs[n].at then cs[n - 1].value
    else Adopted(cs, n - 1)
  }

  /** What the debounced text should be at `now`: the latest change if it
      has been quiet for `Delay` ms, otherwise the latest earlier change that
      was followed by a quiet period. Every other change was cancelled. */
  function Expected(ks: seq<Keystroke>, now: int): string {
    var cs := Changes(ks);
    var last := |cs| - 1;
    if cs[last].at + Delay <= now then cs[last].value else Adopted(cs, last)
  }

  lemma {:induction false} AdoptedStable(cs: seq<Keystroke>, k: Keystroke, n: nat)
    requires n < |cs|
    ensures Adopted(cs + [k], n) == Adopted(cs, n)
    decreases n
  {
    if n > 0 {
      assert (cs + [k])[n] == cs[n] && (cs + [k])[n - 1] == cs[n - 1];
      AdoptedStable(cs, k, n - 1);
    }
  }

  /** What the timer state machine keeps, given the effect's runs `cs` and
      the time of the latest keystroke (none before the first): the typed
      text is the latest change; a pending timer adopts that change `Delay`
      ms after it, and meanwhile the debounced text is the last adopted
      one; with no timer pending, the latest change has been adopted. */
  predicate Keeps(s: SearchState, cs: seq<Keystroke>, latest: Option<int>)
    requires |cs| > 0
  {
    var last := |cs| - 1;
    && s.term == cs[last].value
    && (s.pending.Some? ==> s.pending.value == Timer(cs[last].at + Delay, cs[last].value)
                            && s.debounced == Adopted(cs, last))
    && (s.pending.None? ==> s.debounced == cs[last].value
                            && latest.Some? && cs[last].at + Delay <= latest.value)
    && (latest.None? ==> last == 0)
    && (latest.Some? && last > 0 ==> cs[last].at <= latest.value)
  }

  /** One keystroke, no earlier than the latest, keeps the invariant. */
  lemma TypeKeeps(s: SearchState, cs: seq<Keystroke>, latest: Option<int>, k: Keystroke)
    requires |cs| > 0 && Keeps(s, cs, latest)
    requires latest.Some? ==> latest.value <= k.at
    ensures var last := |cs| - 1;
            Keeps(Type(s, k), if k.value == cs[last].value then cs else cs + [k], Some(k.at))
  {
    var last := |cs| - 1;
    if k.value != cs[last].value {
      AdoptedStable(cs, k, last);
      assert (cs + [k])[last] == cs[last] && (cs + [k])[last + 1] == k;
    }
  }

  /** The time of the latest keystroke; none before the first. */
  function Latest(ks: seq<Keystroke>): (t: Option<int>)
    ensures t.Some? <==> |ks| > 0
    ensures t.Some? ==> t.value == ks[|ks| - 1].at
  {
    if |ks| == 0 then None else Some(ks[|ks| - 1].at)
  }

  /** Dropping the last keystroke keeps the order, and the latest
      remaining keystroke is no later than the dropped one. */
  lemma OrderedDropLast(ks: seq<Keystroke>)
    requires Ordered(ks) && |ks| > 0
    ensures Ordered(ks[..|ks| - 1])
    ensures Latest(ks[..|ks| - 1]).Some? ==> Latest(ks[..|ks| - 1]).value <= ks[|ks| - 1].at
  {
    var pre := ks[..|ks| - 1];
    forall i | 0 < i < |pre| ensures pre[i - 1].at <= pre[i].at {
      assert pre[i - 1] == ks[i - 1] && pre[i] == ks[i];
    }
    if |pre| > 0 {
      assert pre[|pre| - 1] == ks[|ks| - 2];
    }
  }

  /** The state machine keeps the invariant over any ordered keystrokes. */
  lemma {:induction false} RunKeeps(ks: seq<Keystroke>)
    requires Ordered(ks)
    ensures Keeps(Run(ks), Changes(ks), Latest(ks))
    decreases |ks|
  {
    if |ks| > 0 {
      var pre := ks[..|ks| - 1];
      var k := ks[|ks| - 1];
      OrderedDropLast(ks);
      RunKeeps(pre);
      TypeKeeps(Run(pre), Changes(pre), Latest(pre), k);
      assert Run(ks) == Type(Run(pre), k);
    }
  }

  /** What the timer state machine keeps after any ordered keystrokes. */
  lemma RunInvariant(ks: seq<Keystroke>)
    requires Ordered(ks)
    ensures var s := Run(ks);
            var cs := Changes(ks);
            var last := |cs| - 1;
            && s.term == cs[last].value
            && (s.pending.Some? ==> s.pending.value == Timer(cs[last].at + Delay, cs[last].value)
                                    && s.debounced == Adopted(cs, last))
            && (s.pending.None? ==> s.debounced == cs[last].value
                                    && |ks| > 0 && cs[last].at + Delay <= ks[|ks| - 1].at)
            && (|ks| > 0 && last > 0 ==> cs[last].at <= ks[|ks| - 1].at)
  {
    RunKeeps(ks);
  }

  /** The timer state machine computes exactly the declarative reading, at
      any moment no earlier than the last keystroke. */
  lemma DebounceMeetsExpected(ks: seq<Keystroke>, now: int)
    requires Ordered(ks)
    requires |ks| > 0 ==> ks[|ks| - 1].at <= now
    ensures DebouncedAt(ks, now) == Expected(ks, now)
  {
    RunInvariant(ks);
  }

  /** Once `Delay` ms have passed since the last keystroke, the debounced
      text equals the typed text. */
  lemma DebounceSettles(ks: seq<Keystroke>, now: int)
    requires Ordered(ks)
    requires |ks| == 0 ==> Delay <= now
    requires |ks| > 0 ==> ks[|ks| - 1].at + Delay <= now
    ensures DebouncedAt(ks, now) == Run(ks).term
  {
    RunInvariant(ks);
    DebounceMeetsExpected(ks, now);
  }

  /** Typing "a" and then "ab" within the quiet interval: "a" is never
      adopted, and "ab" is adopted exactly 500 ms after it was typed. */
  lemma TypingWithinIntervalCancels(now: int)
    requires 1100 <= now
    ensures var ks := [Keystroke(1000, "a"), Keystroke(1100, "ab")];
            && DebouncedAt(ks, now) != "a"
            && (DebouncedAt(ks, now) == "ab" <==> 1600 <= now)
  {
    var ks := [Keystroke(1000, "a"), Keystroke(1100, "ab")];
    DebounceMeetsExpected(ks, now);
    assert ks[..1] == [Keystroke(1000, "a")];
    assert ks[..1][..0] == [];
    var cs := Changes(ks);
    assert cs == [Keystroke(0, ""), Keystroke(1000, "a"), Keystroke(1100, "ab")];
    assert Adopted(cs, 1) == "";
    assert Adopted(cs, 2) == "";
    assert Expected(ks, now) == (if 1600 <= now then "ab" else "");
  }
}

=== FILE: http.dfy ===
/** The shape of the requests the panel sends to its REST backend. Sending
    them is outside the model: a request is a value, and what came back is an
    input to the functions that react to it. */
module Http {
  import opened Common

  /** Every endpoint lives under this origin. */
  const Api: string := "https://dummyjson.com"

  datatype Method = Get | Post | Put | Delete

  datatype Request = Request(verb: Method, url: string)

  /** What a `fetch` came to: a response whose `ok` flag is set for 2xx
      statuses, or a rejected promise (network failure, body not JSON). */
  datatype Response = Responded(ok: bool) | Rejected(message: string)

  /** The error a fetch helper ends with, if any: every helper throws its own
      fixed message on a non-ok response and passes a rejection through. */
  function FetchError(response: Response, notOk: string): (e: Option<string>)
    ensures e.None? <==> response == Responded(true)
    ensures response == Responded(false) ==> e == Some(notOk)
    ensures response.Rejected? ==> e == Some(response.message)
  {
    match response
    case Responded(ok) => if ok then None else Some(notOk)
    case Rejected(m) => Some(m)
  }
}

=== FILE: product_form_page.dfy ===
/** The product form page, used both to create a product (no route
    parameter) and to edit one (`/products/:productId/edit`). */
module ProductFormPage {
  import opened Common
  import opened Http
  import opened QueryCache
  import ProductsPage

  /** `Boolean(productId)`: editing exactly when the route parameter is a
      non-empty string. */
  function IsEditing(productId: Option<string>): (b: bool)
    ensures b <==> productId.Some? && productId.value != ""
  {
    Truthy(productId)
  }

  /** The request `createOrUpdateProduct` sends: `PUT /products/<id>` when
      editing, `POST /products/add` when creating. */
  function SaveRequest(productId: Option<string>): (r: Request)
    ensures r.verb == Put <==> IsEditing(productId)
    ensures r.verb == Post <==> !IsEditing(productId)
    ensures IsEditing(productId) ==> r.url == ProductsPage.ProductsPath + "/" + productId.value
    ensures !IsEditing(productId) ==> r.url == ProductsPage.ProductsPath + "/add"
  {
    if IsEditing(productId) then Request(Put, ProductsPage.ProductsPath + "/" + productId.value)
    else Request(Post, ProductsPage.ProductsPath + "/add")
  }

  /** The error thrown on a non-ok response. As written, creating reports
      "editar" (edit) rather than a word for creating. */
  function SaveErrorMessage(editing: bool): (m: string)
    ensures editing ==> m == "Falha ao atualizar o produto."
    ensures !editing ==> m == "Falha ao editar o produto."
  {
    "Falha ao " + (if editing then "atualizar" else "editar") + " o produto."
  }

  /** The submitted form fields, field name to value text. */
  type ProductData = map<string, string>

  /** The argument object passed to the mutation. */
  datatype Vars = Vars(token: Option<string>, productId: Option<string>, data: ProductData)

  /** `onSubmit`: token and data always, the product id only when editing. */
  function MutationVariables(routeId: Option<string>, token: Option<string>, data: ProductData): (v: Vars)
    ensures v.token == token && v.data == data
    ensures v.productId.Some? <==> IsEditing(routeId)
    ensures v.productId.Some? ==> v.productId == routeId
  {
    Vars(token, if IsEditing(routeId) then routeId else None, data)
  }

  /** The mutation decides create or edit again from its own argument, and
      always agrees with the page. */
  lemma SubmitAgreesWithPage(routeId: Option<string>, token: Option<string>, data: ProductData)
    ensures var r := SaveRequest(MutationVariables(routeId, token, data).productId);
            (r.verb == Put <==> IsEditing(routeId)) && r == SaveRequest(routeId)
  {
  }

  /** The key of a single product: `['product', productId]`. */
  function ProductKey(productId: Option<string>): (k: QueryKey)
    ensures |k| == 2 && k[0] == KStr("product")
    ensures productId.Some? ==> k[1] == KStr(productId.value)
    ensures productId.None? ==> k[1] == KNull
  {
    [KStr("product"), if productId.Some? then KStr(productId.value) else KNull]
  }

  /** The request `fetchProductForEdit` sends. */
  function EditFetchRequest(productId: string): (r: Request)
    ensures r.verb == Get
    ensures r == SaveRequest(Some(productId)).(verb := Get) <==> productId != ""
  {
    Request(Get, ProductsPage.ProductsPath + "/" + productId)
  }

  /** The pre-fill query: it runs only when editing with a token. */
  function EditQuery(routeId: Option<string>, token: Option<string>): (q: Query)
    ensures q.key == ProductKey(routeId)
    ensures q.enabled <==> IsEditing(routeId) && Truthy(token)
  {
    Query(ProductKey(routeId), IsEditing(routeId) && Truthy(token))
  }

  /** Whenever the pre-fill query runs, it is keyed on the product being
      edited and reads the very URL the save will write to; with no token
      it never runs. */
  lemma EditQueryReadsWhatSaveWrites(routeId: Option<string>, token: Option<string>)
    ensures EditQuery(routeId, token).enabled ==>
              && EditQuery(routeId, token).key == [KStr("product"), KStr(routeId.value)]
              && EditFetchRequest(routeId.value).url == SaveRequest(routeId).url
              && SaveRequest(routeId).verb == Put
    ensures !EditQuery(routeId, None).enabled
  {
  }

  /** The part of the pre-fill query's result the page reads: the fetched
      product once it has arrived, and the loading flag. */
  datatype EditResult = EditResult(data: Option<ProductData>, isLoading: bool)

  /** One run of the pre-fill effect, keyed on its source: the effect runs
      only when the source differs from the one it last ran with, and then
      `reset(source)` replaces the fields if the source is present. Fields
      the user edited since stay otherwise. */
  function PrefillEffect(fields: ProductData, prev: Option<ProductData>, next: Option<ProductData>): (r: ProductData)
    ensures next.Some? && next != prev ==> r == next.value
    ensures !(next.Some? && next != prev) ==> r == fields
  {
    if next != prev && next.Some? then next.value else fields
  }

  /** As written, the effect reads an `initialData` field from the query
      result. The result has no such field, so the effect always sees
      `undefined` and never resets the form. */
  function ResetSourceAsWritten(r: EditResult): (d: Option<ProductData>)
    ensures d.None?
  {
    None
  }

  /** The evidently intended source of the reset: the fetched product. */
  function ResetSource(r: EditResult): (d: Option<ProductData>)
    ensures d.Some? <==> r.data.Some?
    ensures d.Some? ==> d.value == r.data.value
  {
    r.data
  }

  /** As written: the form's fields after the query result moves from
      `prev` to `next`. They never change. */
  function AfterResult(fields: ProductData, prev: EditResult, next: EditResult): (r: ProductData)
    ensures r == fields
  {
    PrefillEffect(fields, ResetSourceAsWritten(prev), ResetSourceAsWritten(next))
  }

  /** Corrected: the fields are reset to the product when a new one arrives,
      and kept, with any edits, on every other render. */
  function AfterResultIntended(fields: ProductData, prev: EditResult, next: EditResult): (r: ProductData)
    ensures next.data.Some? && next.data != prev.data ==> r == next.data.value
    ensures !(next.data.Some? && next.data != prev.data) ==> r == fields
  {
    PrefillEffect(fields, ResetSource(prev), ResetSource(next))
  }

  /** As written, a product that has arrived never reaches the form: the
      fields keep whatever they held. */
  lemma PrefillLostAsWritten(fields: ProductData, prev: EditResult, next: EditResult)
    requires prev.data.None? && next.data.Some? && next.data.value != fields
    ensures AfterResult(fields, prev, next) == fields
    ensures AfterResult(fields, prev, next) != next.data.value
  {
  }

  /** With the intended source, the form shows the product when it arrives,
      and a later render with the same result keeps the user's edits. */
  lemma PrefillShowsProduct(fields: ProductData, edited: ProductData, prev: EditResult, next: EditResult)
    requires prev.data.None? && next.data.Some?
    ensures AfterResultIntended(fields, prev, next) == next.data.value
    ensures AfterResultIntended(edited, next, next) == edited
  {
  }

  /** What a settled save leads to: the cache, the alert, and where the page navigates. */
  datatype SaveEffect = SaveEffect(cache: Cache, alert: string, navigateTo: Option<string>)

  /** The prefixes invalidated after a successful save: every list, and the
      edited product's own entry. */
  function SavedPrefixes(routeId: Option<string>): (ps: seq<QueryKey>)
    ensures |ps| > 0 && ps[0] == [KStr("products")]
    ensures IsEditing(routeId) ==> ps == [[KStr("products")], ProductKey(routeId)]
    ensures !IsEditing(routeId) ==> ps == [[KStr("products")]]
  {
    if IsEditing(routeId) then [[KStr("products")], ProductKey(routeId)] else [[KStr("products")]]
  }

  /** The mutation's `onSuccess`/`onError` for the outcome of the request. */
  function SaveSettled(c: Cache, routeId: Option<string>, response: Response): (r: SaveEffect)
    ensures r.cache.Keys == c.Keys
    ensures response == Responded(true) ==>
              && r.navigateTo == Some("/products")
              && forall k :: k in c ==>
                   (r.cache[k] <==> c[k] || (|k| > 0 && k[0] == KStr("products"))
                                    || (IsEditing(routeId) && ProductKey(routeId) <= k))
    ensures response != Responded(true) ==> r.cache == c && r.navigateTo.None?
    ensures response == Responded(false) ==> r.alert == SaveErrorMessage(IsEditing(routeId))
    ensures response.Rejected? ==> r.alert == response.message
  {
    var editing := IsEditing(routeId);
    match response
    case Responded(ok) =>
      if ok then
        var c' := InvalidateAll(c, SavedPrefixes(routeId));
        assert forall k :: ([KStr("products")] <= k <==> |k| > 0 && k[0] == KStr("products"));
        SaveEffect(c', "Produto " + (if editing then "atualizado" else "criado") + " com sucesso!",
                   Some("/products"))
      else SaveEffect(c, SaveErrorMessage(editing), None)
    case Rejected(m) => SaveEffect(c, m, None)
  }

  /** Creating a product never touches a single-product entry; editing one
      touches no other product's entry. */
  lemma SaveTouchesOnlyItsProduct(c: Cache, routeId: Option<string>, k: QueryKey)
    requires k in c && |k| >= 2 && k[0] == KStr("product")
    requires !IsEditing(routeId) || k[1] != KStr(routeId.value)
    ensures SaveSettled(c, routeId, Responded(true)).cache[k] == c[k]
  {
    if IsEditing(routeId) {
      assert ProductKey(routeId)[1] != k[1];
    }
  }

  /** What the page renders: the loading text, or the form with its title
      and the fields it shows. */
  datatype View = LoadingForEdit | Form(title: string, fields: ProductData)

  /** The loading text shows only while editing and the pre-fill query is
      loading; otherwise the form shows its current fields, which
      `AfterResult` (as written) or `AfterResultIntended` maintain. */
  function Render(routeId: Option<string>, result: EditResult, fields: ProductData): (v: View)
    ensures v == LoadingForEdit <==> IsEditing(routeId) && result.isLoading
    ensures v.Form? ==> (v.title == "Editar Produto" <==> IsEditing(routeId))
    ensures v.Form? ==> v.fields == fields
  {
    if IsEditing(routeId) && result.isLoading then LoadingForEdit
    else Form(if IsEditing(routeId) then "Editar Produto" else "Adicionar Novo Produto", fields)
  }

  /** Editing an existing product: the page first renders with nothing
      fetched, then the product arrives, then the user edits a field and the
      page renders again with the same result. As written the arrival leaves
      the fields as they were; corrected it shows the product. The user's
      edits stay on screen in both. */
  lemma ArrivalThenEdit(id: string, fields: ProductData, product: ProductData, edited: ProductData)
    requires id != "" && product != fields
    ensures var none, got := EditResult(None, false), EditResult(Some(product), false);
            && Render(Some(id), got, AfterResult(fields, none, got)) == Form("Editar Produto", fields)
            && Render(Some(id), got, AfterResultIntended(fields, none, got)) == Form("Editar Produto", product)
            && Render(Some(id), got, AfterResult(edited, got, got)) == Form("Editar Produto", edited)
            && Render(Some(id), got, AfterResultIntended(edited, got, got)) == Form("Editar Produto", edited)
  {
  }
}

=== FILE: products_page.dfy ===
/** The product list page: paging, sorting and search state, the URL it
    fetches, its query key, who sees the management controls, and what a
    delete does to the cache. */
module ProductsPage {
  import opened Common
  import opened Text
  import opened Http
  import opened QueryCache
  import opened AuthContext
  import Debounce

  /** Products per page. */
  const PageSize: int := 10

  datatype SortOrder = Asc | Desc

  function OrderName(o: SortOrder): string {
    match o
    case Asc => "asc"
    case Desc => "desc"
  }

  /** The page's list state. `page` starts at 1 and only the transitions
      below change it. */
  datatype ListState = ListState(
    page: int,
    sortColumn: string,
    sortOrder: SortOrder,
    searchTerm: string,
    debouncedSearchTerm: string)

  /** The state on mount: the first page, sorted by title ascending, both
      search texts empty. */
  const Initial: ListState := ListState(1, "title", Asc, "", "")

  /** Products skipped before the given page. */
  function Skip(page: int): (r: int)
    ensures r % PageSize == 0 && r / PageSize == page - 1
    ensures page >= 1 ==> r >= 0
  {
    (page - 1) * PageSize
  }

  const ProductsPath: string := Api + "/products"
  const SearchPath: string := Api + "/products/search"

  /** `fetchProducts`'s URL: the search endpoint (no sorting) when the term
      is non-empty, the sorted catalog otherwise. The term goes in unencoded. */
  function FetchUrl(page: int, sortBy: string, order: SortOrder, searchTerm: string): (url: string)
    ensures ProductsPath < url
    ensures searchTerm != "" <==> SearchPath + "?q=" <= url
    ensures searchTerm == "" <==> url[|ProductsPath|] == '?'
  {
    var skip := Skip(page);
    var l, k := IntToString(PageSize), IntToString(skip);
    // `baseUrl + queryParams`, with both parts chosen by the same test.
    if searchTerm != "" then
      var baseUrl := SearchPath + "?q=" + searchTerm;
      var queryParams := "&limit=" + l + "&skip=" + k;
      SearchUrlStart(searchTerm, queryParams);
      baseUrl + queryParams
    else
      var baseUrl := ProductsPath;
      var queryParams := "?limit=" + l + "&skip=" + k + "&sortBy=" + sortBy + "&order=" + OrderName(order);
      CatalogUrlStart(queryParams);
      baseUrl + queryParams
  }

  /** The search endpoint lies under the products path. */
  lemma SearchPathExtends()
    ensures SearchPath == ProductsPath + "/search"
  {
  }

  /** A non-empty extension of `p` starts with `p`, and its next character
      is the extension's first. */
  lemma FollowedBy(p: string, rest: string)
    requires |rest| > 0
    ensures p < p + rest && (p + rest)[|p|] == rest[0]
  {
  }

  /** Two extensions of `p` that differ in their first character are not
      prefixes of one another. */
  lemma DivergeAt(p: string, a: string, b: string)
    requires |a| > 0 && |b| > 0 && a[0] != b[0]
    ensures !(p + a <= p + b)
  {
    assert (p + a)[|p|] == a[0] && (p + b)[|p|] == b[0];
  }

  /** Any search URL continues the products path with a '/'. */
  lemma SearchUrlStart(term: string, q: string)
    ensures var url := (SearchPath + "?q=" + term) + q;
            ProductsPath < url && url[|ProductsPath|] == '/' && SearchPath + "?q=" <= url
  {
    var tail := term + q;
    var rest := "/search" + ("?q=" + tail);
    SearchPathExtends();
    assert (SearchPath + "?q=" + term) + q == (SearchPath + "?q=") + tail;
    assert (SearchPath + "?q=") + tail == ProductsPath + rest;
    FollowedBy(ProductsPath, rest);
  }

  /** A catalog URL continues the products path with its '?', so it is no
      search URL. */
  lemma CatalogUrlStart(q: string)
    requires |q| > 0 && q[0] == '?'
    ensures var url := ProductsPath + q;
            ProductsPath < url && url[|ProductsPath|] == '?' && !(SearchPath + "?q=" <= url)
  {
    SearchPathExtends();
    assert SearchPath + "?q=" == ProductsPath + ("/search" + "?q=");
    FollowedBy(ProductsPath, q);
    DivergeAt(ProductsPath, "/search" + "?q=", q);
  }

  /** The URL the page fetches: it searches with the debounced term. */
  function ListUrl(st: ListState): string {
    FetchUrl(st.page, st.sortColumn, st.sortOrder, st.debouncedSearchTerm)
  }

  /** What `fetchProducts` throws on a non-ok response. */
  const ListFailedMessage: string := "Falha ao buscar produtos."

  lemma NoReservedChars()
    ensures '?' !in SearchPath && '?' !in ProductsPath
  {
    assert SearchPath == "https://dummyjson.com/products/search";
    assert ProductsPath == "https://dummyjson.com/products";
  }

  lemma NumberHasNoAmpersand(i: int)
    ensures '&' !in IntToString(i)
  {
  }

  /** The parameter names the page writes hold neither '=' nor '&'. */
  lemma CleanNames()
    ensures '=' !in "q" && '&' !in "q"
    ensures '=' !in "limit" && '&' !in "limit"
    ensures '=' !in "skip" && '&' !in "skip"
    ensures '=' !in "sortBy" && '&' !in "sortBy"
    ensures '=' !in "order" && '&' !in "order"
  {
  }

  lemma SearchHead(term: string)
    ensures "?q=" + term == "?" + Piece("q", term)
  {
    assert "?q=" == "?" + "q" + "=";
  }

  lemma SearchTail(l: string, k: string)
    ensures "&limit=" + l + "&skip=" + k == "&" + Piece("limit", l) + "&" + Piece("skip", k)
  {
    assert "&limit=" == "&" + "limit" + "=";
    assert "&skip=" == "&" + "skip" + "=";
  }

  /** The search URL's shape, for any path: the path, a '?', and three
      pieces joined by '&'. */
  lemma SearchUrlShape(path: string, term: string, l: string, k: string)
    ensures (path + "?q=" + term) + ("&limit=" + l + "&skip=" + k)
            == path + "?" + Join([Piece("q", term), Piece("limit", l), Piece("skip", k)], '&')
  {
    calc {
      (path + "?q=" + term) + ("&limit=" + l + "&skip=" + k);
    == { SearchHead(term); }
      (path + "?" + Piece("q", term)) + ("&limit=" + l + "&skip=" + k);
    == { SearchTail(l, k); }
      (path + "?" + Piece("q", term)) + ("&" + Piece("limit", l) + "&" + Piece("skip", k));
    ==
      path + "?" + (Piece("q", term) + "&" + Piece("limit", l) + "&" + Piece("skip", k));
    == { JoinThree(Piece("q", term), Piece("limit", l), Piece("skip", k), '&'); }
      path + "?" + Join([Piece("q", term), Piece("limit", l), Piece("skip", k)], '&');
    }
  }

  lemma CatalogHead(l: string, k: string)
    ensures "?limit=" + l + "&skip=" + k == "?" + Piece("limit", l) + "&" + Piece("skip", k)
  {
    assert "?limit=" == "?" + "limit" + "=";
    assert "&skip=" == "&" + "skip" + "=";
  }

  lemma CatalogTail(h: string, sortBy: string, o: string)
    ensures h + "&sortBy=" + sortBy + "&order=" + o == h + "&" + Piece("sortBy", sortBy) + "&" + Piece("order", o)
  {
    assert "&sortBy=" == "&" + "sortBy" + "=";
    assert "&order=" == "&" + "order" + "=";
  }

  /** The catalog URL's shape, for any path: the path, a '?', and four
      pieces joined by '&'. */
  lemma CatalogUrlShape(path: string, l: string, k: string, sortBy: string, o: string)
    ensures path + ("?limit=" + l + "&skip=" + k + "&sortBy=" + sortBy + "&order=" + o)
            == path + "?" + Join([Piece("limit", l), Piece("skip", k),
                                  Piece("sortBy", sortBy), Piece("order", o)], '&')
  {
    var pl, pk, ps, po := Piece("limit", l), Piece("skip", k), Piece("sortBy", sortBy), Piece("order", o);
    calc {
      "?limit=" + l + "&skip=" + k + "&sortBy=" + sortBy + "&order=" + o;
    == { CatalogTail("?limit=" + l + "&skip=" + k, sortBy, o); }
      ("?limit=" + l + "&skip=" + k) + "&" + ps + "&" + po;
    == { CatalogHead(l, k); }
      ("?" + pl + "&" + pk) + "&" + ps + "&" + po;
    ==
      "?" + (pl + "&" + pk + "&" + ps + "&" + po);
    == { JoinFour(pl, pk, ps, po, '&'); }
      "?" + Join([pl, pk, ps, po], '&');
    }
  }

  /** Reading a search URL built on any '?'-free path. */
  lemma ReadSearchUrl(path: string, term: string, l: string, k: string)
    requires '?' !in path && '&' !in term && '&' !in l && '&' !in k
    ensures var url := (path + "?q=" + term) + ("&limit=" + l + "&skip=" + k);
            PathOf(url) == path
            && QueryOf(url) == [Param("q", term), Param("limit", l), Param("skip", k)]
  {
    CleanNames();
    ReadPiece("q", term);
    ReadPiece("limit", l);
    ReadPiece("skip", k);
    SearchUrlShape(path, term, l, k);
    ReadUrl3(path, Piece("q", term), Piece("limit", l), Piece("skip", k));
  }

  /** Reading a catalog URL built on any '?'-free path. */
  lemma ReadCatalogUrl(path: string, l: string, k: string, sortBy: string, o: string)
    requires '?' !in path && '&' !in l && '&' !in k && '&' !in sortBy && '&' !in o
    ensures var url := path + ("?limit=" + l + "&skip=" + k + "&sortBy=" + sortBy + "&order=" + o);
            PathOf(url) == path
            && QueryOf(url) == [Param("limit", l), Param("skip", k), Param("sortBy", sortBy), Param("order", o)]
  {
    CleanNames();
    ReadPiece("limit", l);
    ReadPiece("skip", k);
    ReadPiece("sortBy", sortBy);
    ReadPiece("order", o);
    CatalogUrlShape(path, l, k, sortBy, o);
    ReadUrl4(path, Piece("limit", l), Piece("skip", k), Piece("sortBy", sortBy), Piece("order", o));
  }

  /** The URL a search fetches, written out. */
  lemma SearchFetchUrl(page: int, sortBy: string, order: SortOrder, term: string)
    requires term != ""
    ensures FetchUrl(page, sortBy, order, term)
            == (SearchPath + "?q=" + term) + ("&limit=" + IntToString(PageSize) + "&skip=" + IntToString(Skip(page)))
  {
  }

  /** The URL the catalog fetches, written out. */
  lemma CatalogFetchUrl(page: int, sortBy: string, order: SortOrder)
    ensures FetchUrl(page, sortBy, order, "")
            == ProductsPath + ("?limit=" + IntToString(PageSize) + "&skip=" + IntToString(Skip(page))
                               + "&sortBy=" + sortBy + "&order=" + OrderName(order))
  {
  }

  /** A search URL carries exactly the term, the page size and the skip. A
      '#' would start a fragment the browser does not send, so the term is
      free of it here. */
  lemma SearchUrlReadsBack(page: int, sortBy: string, order: SortOrder, term: string)
    requires term != "" && '&' !in term && '#' !in term
    ensures var url := FetchUrl(page, sortBy, order, term);
            && PathOf(url) == SearchPath
            && QueryOf(url) == [Param("q", term), Param("limit", IntToString(PageSize)),
                                Param("skip", IntToString(Skip(page)))]
  {
    var l, k := IntToString(PageSize), IntToString(Skip(page));
    SearchFetchUrl(page, sortBy, order, term);
    NoReservedChars();
    NumberHasNoAmpersand(PageSize);
    NumberHasNoAmpersand(Skip(page));
    ReadSearchUrl(SearchPath, term, l, k);
  }

  /** A search never sends a sorting parameter, whatever the sort state. */
  lemma SearchUrlIgnoresSort(page: int, sortBy: string, order: SortOrder, term: string)
    requires term != "" && '&' !in term && '#' !in term
    ensures forall p :: p in QueryOf(FetchUrl(page, sortBy, order, term)) ==>
              p.name != "sortBy" && p.name != "order"
    ensures FetchUrl(page, sortBy, order, term) == FetchUrl(page, "title", Asc, term)
  {
    SearchFetchUrl(page, sortBy, order, term);
    SearchFetchUrl(page, "title", Asc, term);
    SearchUrlReadsBack(page, sortBy, order, term);
    SearchNamesAreNotSortNames(term, IntToString(PageSize), IntToString(Skip(page)));
  }

  /** The three parameters of a search are named apart from both sort parameters. */
  lemma SearchNamesAreNotSortNames(a: string, b: string, c: string)
    ensures forall p :: p in [Param("q", a), Param("limit", b), Param("skip", c)] ==>
              p.name != "sortBy" && p.name != "order"
  {
    assert |"q"| == 1 && |"skip"| == 4 && |"limit"| == 5;
    assert |"sortBy"| == 6 && |"order"| == 5;
    assert "limit"[0] != "order"[0];
  }

  /** A catalog URL carries the page size, the skip, the column and the order. */
  lemma CatalogUrlReadsBack(page: int, sortBy: string, order: SortOrder)
    requires '&' !in sortBy && '#' !in sortBy
    ensures var url := FetchUrl(page, sortBy, order, "");
            && PathOf(url) == ProductsPath
            && QueryOf(url) == [Param("limit", IntToString(PageSize)),
                                Param("skip", IntToString(Skip(page))),
                                Param("sortBy", sortBy), Param("order", OrderName(order))]
  {
    var l, k := IntToString(PageSize), IntToString(Skip(page));
    NoReservedChars();
    NumberHasNoAmpersand(PageSize);
    NumberHasNoAmpersand(Skip(page));
    assert '&' !in OrderName(order);
    CatalogFetchUrl(page, sortBy, order);
    ReadCatalogUrl(ProductsPath, l, k, sortBy, OrderName(order));
  }

  /** As written, the term is not encoded: an '&' in it starts a parameter of
      its own, so a term such as "x&sortBy=price" smuggles in a sort parameter. */
  lemma AmpersandInTermAddsParameter(page: int, sortBy: string, order: SortOrder, a: string, b: string)
    requires '&' !in a && '&' !in b && '#' !in a && '#' !in b
    ensures QueryOf(FetchUrl(page, sortBy, order, a + "&" + b))
            == [Param("q", a), ToParam(b), Param("limit", IntToString(PageSize)),
                Param("skip", IntToString(Skip(page)))]
  {
    var l, k := IntToString(PageSize), IntToString(Skip(page));
    var term := a + "&" + b;
    var url := FetchUrl(page, sortBy, order, term);
    var pieces := [Piece("q", a), b, Piece("limit", l), Piece("skip", k)];
    NoReservedChars();
    NumberHasNoAmpersand(PageSize);
    NumberHasNoAmpersand(Skip(page));
    SearchFetchUrl(page, sortBy, order, term);
    SearchUrlShape(SearchPath, term, l, k);
    calc {
      Join([Piece("q", term), Piece("limit", l), Piece("skip", k)], '&');
    == { JoinThree(Piece("q", term), Piece("limit", l), Piece("skip", k), '&'); }
      Piece("q", term) + "&" + Piece("limit", l) + "&" + Piece("skip", k);
    == { assert Piece("q", term) == Piece("q", a) + "&" + b; }
      Piece("q", a) + "&" + b + "&" + Piece("limit", l) + "&" + Piece("skip", k);
    == { JoinFour(Piece("q", a), b, Piece("limit", l), Piece("skip", k), '&'); }
      Join(pieces, '&');
    }
    CleanNames();
    ReadPiece("q", a);
    ReadPiece("limit", l);
    ReadPiece("skip", k);
    ReadUrl4(SearchPath, Piece("q", a), b, Piece("limit", l), Piece("skip", k));
  }

  function Flip(o: SortOrder): SortOrder {
    if o == Asc then Desc else Asc
  }

  /** `handleSort(column)`: the current column flips its order, another
      column starts ascending; either way back to the first page. */
  function HandleSort(st: ListState, column: string): (r: ListState)
    ensures r.page == 1 && r.sortColumn == column
    ensures column == st.sortColumn ==> r.sortOrder != st.sortOrder
    ensures column != st.sortColumn ==> r.sortOrder == Asc
    ensures r.searchTerm == st.searchTerm && r.debouncedSearchTerm == st.debouncedSearchTerm
  {
    if st.sortColumn == column then st.(sortOrder := Flip(st.sortOrder), page := 1)
    else st.(sortColumn := column, sortOrder := Asc, page := 1)
  }

  /** Sorting twice by the current column restores the order. */
  lemma SortTwiceRestoresOrder(st: ListState)
    ensures HandleSort(HandleSort(st, st.sortColumn), st.sortColumn) == st.(page := 1)
  {
  }

  /** `Math.ceil(total / 10)` when there is data, 0 otherwise. */
  function TotalPages(total: Option<nat>): (r: nat)
    ensures total.None? ==> r == 0
    ensures total.Some? ==> r * PageSize >= total.value
    ensures total.Some? && r > 0 ==> (r - 1) * PageSize < total.value
  {
    match total
    case None => 0
    case Some(t) => (t + PageSize - 1) / PageSize
  }

  /** `handleNextPage`: one page on, only while before the last page. */
  function NextPage(st: ListState, totalPages: int): (r: ListState)
    ensures r.page == st.page + 1 <==> st.page < totalPages
    ensures r.page == st.page || r.page == st.page + 1
    ensures r.(page := st.page) == st
  {
    if st.page < totalPages then st.(page := st.page + 1) else st
  }

  /** `handlePrevPage`: one page back, only while after the first page. */
  function PrevPage(st: ListState): (r: ListState)
    ensures r.page == st.page - 1 <==> st.page > 1
    ensures r.page == st.page || r.page == st.page - 1
    ensures r.(page := st.page) == st
  {
    if st.page > 1 then st.(page := st.page - 1) else st
  }

  /** Paging never goes below page 1, and a page within `[1, totalPages]` stays there. */
  lemma PagingStaysInRange(st: ListState, totalPages: int)
    requires st.page >= 1
    ensures NextPage(st, totalPages).page >= 1 && PrevPage(st).page >= 1
    ensures st.page <= totalPages ==>
              NextPage(st, totalPages).page <= totalPages && PrevPage(st).page <= totalPages
  {
  }

  /** The mount state agrees with the debounce's mount state: before any
      keystroke the pending timer only adopts the empty text again, so the
      state stays as it was; paging from it stays on pages from 1 on. */
  lemma InitialIsMountState(now: int, totalPages: int)
    ensures Initial.searchTerm == Debounce.Start.term
    ensures Initial.debouncedSearchTerm == Debounce.Start.debounced
    ensures AfterTyping(Initial, [], now) == Initial
    ensures PrevPage(Initial) == Initial
    ensures NextPage(Initial, totalPages).page >= 1
  {
    PagingStaysInRange(Initial, totalPages);
  }

  /** "Próxima" is disabled only on exactly the last page (or while
      fetching), a weaker test than the handler's guard: off the last page
      but not before it, the button is enabled and a click does nothing.
      Before the first reply there are 0 pages, so this is the mount state. */
  lemma NextButtonEnabledButInert(st: ListState, totalPages: int)
    requires st.page != totalPages && !(st.page < totalPages)
    ensures st.page > totalPages
    ensures NextPage(st, totalPages) == st
    ensures Initial.page != TotalPages(None) && NextPage(Initial, TotalPages(None)) == Initial
  {
  }

  /** As written, nothing clamps the page when the total shrinks: a page past
      the end stays where it is until the user steps back. */
  lemma NoClampAfterShrink(st: ListState, totalPages: int)
    requires st.page > totalPages
    ensures NextPage(st, totalPages) == st
  {
  }

  /** The list state seen at `now`, where `ks` is every keystroke since the
      page mounted (the debounce state starts from its mount state, so a
      shorter history does not describe the page): only the two search
      texts change; the page is not reset. */
  function AfterTyping(st: ListState, ks: seq<Debounce.Keystroke>, now: int): (r: ListState)
    ensures r.(searchTerm := st.searchTerm, debouncedSearchTerm := st.debouncedSearchTerm) == st
    ensures |ks| > 0 ==> r.searchTerm == ks[|ks| - 1].value
    ensures Debounce.Ordered(ks) && (|ks| > 0 ==> ks[|ks| - 1].at <= now) ==>
              r.debouncedSearchTerm == Debounce.Expected(ks, now)
    ensures Debounce.Ordered(ks) && |ks| > 0 && ks[|ks| - 1].at + Debounce.Delay <= now ==>
              r.debouncedSearchTerm == r.searchTerm
  {
    var r := st.(searchTerm := Debounce.Run(ks).term, debouncedSearchTerm := Debounce.DebouncedAt(ks, now));
    if Debounce.Ordered(ks) && (|ks| > 0 ==> ks[|ks| - 1].at <= now) then
      Debounce.DebounceMeetsExpected(ks, now);
      if |ks| > 0 && ks[|ks| - 1].at + Debounce.Delay <= now then
        Debounce.DebounceSettles(ks, now);
        r
      else r
    else r
  }

  /** `['products', page, column, order, debouncedTerm, token]`. */
  function ListKey(st: ListState, token: Option<string>): (k: QueryKey)
    ensures |k| == 6 && k[0] == KStr("products")
  {
    [KStr("products"), KInt(st.page), KStr(st.sortColumn), KStr(OrderName(st.sortOrder)),
     KStr(st.debouncedSearchTerm), TokenPart(token)]
  }

  /** The list query. Its `enabled` option is misspelled in the source, so
      the library default applies and it runs with or without a token. */
  function ListQuery(st: ListState, token: Option<string>): (q: Query)
    ensures q.key == ListKey(st, token)
    ensures q.enabled
  {
    Query(ListKey(st, token), true)
  }

  /** Two list states share a cache entry exactly when everything the fetch
      depends on agrees: the key leaves out only the typed (undebounced) text. */
  lemma ListKeyIdentifiesFetch(a: ListState, b: ListState, t: Option<string>, u: Option<string>)
    ensures ListKey(a, t) == ListKey(b, u) <==>
              a.(searchTerm := b.searchTerm) == b && t == u
  {
    if ListKey(a, t) == ListKey(b, u) {
      assert ListKey(a, t)[1] == ListKey(b, u)[1];
      assert ListKey(a, t)[3] == ListKey(b, u)[3];
      assert ListKey(a, t)[5] == ListKey(b, u)[5];
    }
  }

  /** The cache key covers every input of the fetch: list states that share
      a cache entry fetch the same URL. */
  lemma SameKeySameUrl(a: ListState, b: ListState, t: Option<string>, u: Option<string>)
    requires ListKey(a, t) == ListKey(b, u)
    ensures ListUrl(a) == ListUrl(b)
  {
    ListKeyIdentifiesFetch(a, b, t, u);
  }

  /** `user?.role === 'admin' || user?.role === 'stock_manager'`. */
  function CanManageProducts(user: Option<User>): (b: bool)
    ensures b <==> RoleOf(user).Some? && ParseRole(RoleOf(user).value) in {Some(Admin), Some(StockManager)}
  {
    RoleOf(user) == Some("admin") || RoleOf(user) == Some("stock_manager")
  }

  /** The DELETE request for one product. */
  function DeleteRequest(productId: int): (r: Request)
    ensures r.verb == Delete
    ensures r.url == ProductsPath + "/" + IntToString(productId)
  {
    Request(Delete, ProductsPath + "/" + IntToString(productId))
  }

  const DeleteFailedMessage: string := "Falha ao deletar o produto."
  const DeletedAlert: string := "Produto deletado com sucesso!"

  /** What one click on "Deletar" leads to: the request sent (if any), the
      cache afterwards, and the alert shown (if any). */
  datatype DeleteEffect = DeleteEffect(sent: Option<Request>, cache: Cache, alert: Option<string>)

  /** `handleDelete` with the answer to the confirmation dialog and the
      outcome of the request: success invalidates every key under
      'products'; failure leaves the cache as it was and shows the error. */
  function HandleDelete(c: Cache, confirmed: bool, productId: int, response: Response): (r: DeleteEffect)
    ensures !confirmed ==> r == DeleteEffect(None, c, None)
    ensures confirmed ==> r.sent == Some(DeleteRequest(productId)) && r.alert.Some?
    ensures r.cache.Keys == c.Keys
    ensures confirmed && response == Responded(true) ==>
              forall k :: k in c ==> (r.cache[k] <==> c[k] || (|k| > 0 && k[0] == KStr("products")))
    ensures !(confirmed && response == Responded(true)) ==> r.cache == c
    ensures confirmed && response == Responded(false) ==>
              r.alert == Some("Erro ao deletar: " + DeleteFailedMessage)
    ensures confirmed && response.Rejected? ==>
              r.alert == Some("Erro ao deletar: " + response.message)
  {
    if !confirmed then DeleteEffect(None, c, None)
    else
      var sent := Some(DeleteRequest(productId));
      match response
      case Responded(ok) =>
        if ok then
          var c' := Invalidate(c, [KStr("products")]);
          assert forall k :: k in c ==> ([KStr("products")] <= k <==> |k| > 0 && k[0] == KStr("products"));
          DeleteEffect(sent, c', Some(DeletedAlert))
        else DeleteEffect(sent, c, Some("Erro ao deletar: " + DeleteFailedMessage))
      case Rejected(m) => DeleteEffect(sent, c, Some("Erro ao deletar: " + m))
  }

  /** What the page renders. */
  datatype View = Loading | Failed(message: string) | Table(manage: bool)

  /** Loading only while pending with nothing to show (the previous page's
      data is kept while the next one loads), then the error, then the table. */
  function Render(status: Status, hasData: bool, user: Option<User>): (v: View)
    ensures v == Loading <==> status == Pending && !hasData
    ensures v.Failed? <==> status.Errored?
    ensures v.Failed? ==> v.message == "Erro: " + status.message
    ensures v.Table? ==> v.manage == CanManageProducts(user)
  {
    if status == Pending && !hasData then Loading
    else if status.Errored? then Failed("Erro: " + status.message)
    else Table(CanManageProducts(user))
  }

  /** A failed list fetch shows its message behind "Erro: ", even while the
      previous page's data is still at hand. */
  lemma FailedFetchShowsError(response: Response, hasData: bool, user: Option<User>)
    requires response != Responded(true)
    ensures var e := FetchError(response, ListFailedMessage);
            e.Some? && Render(Errored(e.value), hasData, user) == Failed("Erro: " + e.value)
  {
  }
}

=== FILE: protected_route.dfy ===
/** The route guard wrapped around every page except the login page. */
module ProtectedRoute {
  import opened Common
  import opened AuthContext

  /** What the guard renders. */
  datatype Admission = RenderNothing | RedirectLogin | RedirectDashboard | RenderChildren

  /** `roles.includes(user?.role)`: an absent role is never listed. */
  predicate Listed(roles: seq<Role>, role: Option<string>) {
    role.Some? && exists i :: 0 <= i < |roles| && RoleName(roles[i]) == role.value
  }

  /** The guard's decision. Checks run in order: still initializing, no
      token, role not allowed. `roles` is the optional allow-list prop; an
      empty list is still a list and admits nobody. */
  function Admit(isInitializing: bool, token: Option<string>, user: Option<User>,
                 roles: Option<seq<Role>>): (r: Admission)
    ensures isInitializing ==> r == RenderNothing
    ensures r == RenderNothing ==> isInitializing
    ensures r == RedirectLogin <==> !isInitializing && !Truthy(token)
    ensures r == RedirectDashboard <==>
              !isInitializing && Truthy(token) && roles.Some? && !Listed(roles.value, RoleOf(user))
    ensures r == RenderChildren <==>
              !isInitializing && Truthy(token) && (roles.None? || Listed(roles.value, RoleOf(user)))
  {
    if isInitializing then RenderNothing
    else if !Truthy(token) then RedirectLogin
    else if roles.Some? && !Listed(roles.value, RoleOf(user)) then RedirectDashboard
    else RenderChildren
  }

  /** The guard reading the provider's state. */
  function Guard(a: Auth, roles: Option<seq<Role>>): Admission {
    Admit(a.session.isInitializing, a.session.token, a.session.user, roles)
  }

  /** With a role list, a signed-in user is admitted exactly when their role
      text names a listed role. */
  lemma AdmitByRole(token: Option<string>, user: Option<User>, roles: seq<Role>)
    requires Truthy(token)
    ensures Admit(false, token, user, Some(roles)) == RenderChildren <==>
              RoleOf(user).Some? && ParseRole(RoleOf(user).value).Some?
              && ParseRole(RoleOf(user).value).value in roles
  {
    var role := RoleOf(user);
    if Listed(roles, role) {
      var i :| 0 <= i < |roles| && RoleName(roles[i]) == role.value;
      assert ParseRole(RoleName(roles[i])) == Some(roles[i]);
    }
    if role.Some? && ParseRole(role.value).Some? && ParseRole(role.value).value in roles {
      var q := ParseRole(role.value).value;
      var i :| 0 <= i < |roles| && roles[i] == q;
      assert RoleName(roles[i]) == role.value;
    }
  }

  /** Every guarded route of the application passes no role list, so any
      truthy token is enough once initialization is over, even one restored
      without a user. */
  lemma RestoredTokenWithoutUserIsAdmitted(t: string)
    requires t != ""
    ensures Guard(Restore(Mounted(Storage(Some(t), Malformed))), None) == RenderChildren
  {
  }

  /** A first visit with nothing stored ends on the login page once the
      mount effect has run, and renders nothing before it. */
  lemma EmptyStorageRedirectsToLogin(roles: Option<seq<Role>>)
    ensures Guard(Mounted(ClearedStorage), roles) == RenderNothing
    ensures Guard(Restore(Mounted(ClearedStorage)), roles) == RedirectLogin
  {
  }

  /** After any failed login the guard sends the user to the login page. */
  lemma FailedLoginRedirects(a: Auth, username: string, password: string, remote: Remote,
                             roles: Option<seq<Role>>)
    requires !a.session.isInitializing
    requires Login(a, username, password, remote).result.LoginFailed?
    ensures Guard(Login(a, username, password, remote).final, roles) == RedirectLogin
  {
  }
}

=== FILE: query_cache.dfy ===
/** The part of the data-fetching library the pages rely on: array query
    keys, the `enabled` option, and invalidation of every cached key that
    starts with a given prefix. A cache is reduced to which keys it holds and
    whether each is marked stale (to be fetched again on next use). */
module QueryCache {
  import opened Common

  /** One element of a query key array. `null` and `undefined` are `KNull`. */
  datatype KeyPart = KStr(s: string) | KInt(n: int) | KNull

  type QueryKey = seq<KeyPart>

  /** A token as it appears in a key: the string itself, or `null`. */
  function TokenPart(token: Option<string>): (p: KeyPart)
    ensures p == KNull <==> token.None?
    ensures token.Some? ==> p == KStr(token.value)
  {
    match token
    case Some(t) => KStr(t)
    case None => KNull
  }

  /** A query's status as a page reads it. A disabled query stays pending. */
  datatype Status = Pending | Errored(message: string) | Succeeded

  /** The options a page passes for one query: its key and whether it may run. */
  datatype Query = Query(key: QueryKey, enabled: bool)

  /** Cached keys, each mapped to its stale flag. */
  type Cache = map<QueryKey, bool>

  /** `invalidateQueries({ queryKey: prefix })`: every cached key that starts
      with `prefix` is marked stale; nothing else changes. */
  function Invalidate(c: Cache, prefix: QueryKey): (r: Cache)
    ensures r.Keys == c.Keys
    ensures forall k :: k in c && prefix <= k ==> r[k]
    ensures forall k :: k in c && !(prefix <= k) ==> r[k] == c[k]
  {
    map k | k in c :: c[k] || prefix <= k
  }

  /** Several invalidations in a row, in the order given. */
  function InvalidateAll(c: Cache, prefixes: seq<QueryKey>): (r: Cache)
    ensures r.Keys == c.Keys
    ensures forall k :: k in c ==>
              (r[k] <==> c[k] || exists i :: 0 <= i < |prefixes| && prefixes[i] <= k)
    decreases |prefixes|
  {
    if |prefixes| == 0 then c
    else
      var c1 := Invalidate(c, prefixes[0]);
      var rest := InvalidateAll(c1, prefixes[1..]);
      assert forall k :: k in c ==>
               (rest[k] <==> c[k] || exists i :: 0 <= i < |prefixes| && prefixes[i] <= k) by {
        forall k | k in c
          ensures rest[k] <==> c[k] || exists i :: 0 <= i < |prefixes| && prefixes[i] <= k
        {
          if exists j :: 0 <= j < |prefixes| - 1 && prefixes[1..][j] <= k {
            var j :| 0 <= j < |prefixes| - 1 && prefixes[1..][j] <= k;
            assert prefixes[j + 1] <= k;
          }
          if exists i :: 0 <= i < |prefixes| && prefixes[i] <= k {
            var i :| 0 <= i < |prefixes| && prefixes[i] <= k;
            if i > 0 {
              assert prefixes[1..][i - 1] <= k;
            }
          }
        }
      }
      rest
  }

  /** Invalidating twice with the same prefix is the same as once. */
  lemma InvalidateIdempotent(c: Cache, prefix: QueryKey)
    ensures Invalidate(Invalidate(c, prefix), prefix) == Invalidate(c, prefix)
  {
  }

  /** A key whose first element differs from the prefix's first element is
      never touched. */
  lemma InvalidateSparesOtherHeads(c: Cache, prefix: QueryKey, k: QueryKey)
    requires k in c && |prefix| > 0
    requires |k| == 0 || k[0] != prefix[0]
    ensures Invalidate(c, prefix)[k] == c[k]
  {
  }
}

=== FILE: text.dfy ===
/** Strings as the panel builds them: numbers in decimal (what a template
    literal `${n}` produces for an integer), and the reading of a request URL
    back into its path and its `name=value` query parameters, which is how
    the properties of the built URLs are stated. */
module Text {
  import opened Common

  predicate IsDigit(c: char) {
    '0' <= c <= '9'
  }

  predicate AllDigits(s: string) {
    forall i :: 0 <= i < |s| ==> IsDigit(s[i])
  }

  function DigitChar(d: nat): (c: char)
    requires d < 10
    ensures IsDigit(c)
    ensures c as int - '0' as int == d
  {
    ('0' as int + d) as char
  }

  /** Decimal rendering of a natural number, most significant digit first. */
  function NatToString(n: nat): (s: string)
    ensures |s| > 0
    ensures AllDigits(s)
    ensures s[0] == '0' ==> n == 0
    decreases n
  {
    if n < 10 then [DigitChar(n)] else NatToString(n / 10) + [DigitChar(n % 10)]
  }

  /** The reading of a digit string, the inverse of `NatToString`. */
  function ParseNat(s: string): nat
    requires AllDigits(s)
    decreases |s|
  {
    if |s| == 0 then 0
    else ParseNat(s[..|s| - 1]) * 10 + (s[|s| - 1] as int - '0' as int)
  }

  lemma {:induction false} ParseNatToString(n: nat)
    ensures ParseNat(NatToString(n)) == n
    decreases n
  {
    if n >= 10 {
      var s := NatToString(n);
      assert s[..|s| - 1] == NatToString(n / 10);
      ParseNatToString(n / 10);
    }
  }

  /** Decimal rendering of an integer, with a leading '-' for negatives. */
  function IntToString(i: int): (s: string)
    ensures |s| > 0
    ensures forall k :: 0 <= k < |s| ==> IsDigit(s[k]) || s[k] == '-'
    ensures i >= 0 <==> AllDigits(s)
  {
    if i < 0 then
      var s := "-" + NatToString(-i);
      assert !IsDigit(s[0]);
      s
    else NatToString(i)
  }

  /** Position of the first `c` in `s`, or `|s|` when there is none. */
  function IndexOf(s: string, c: char): (i: nat)
    ensures i <= |s|
    ensures i < |s| ==> s[i] == c
    ensures forall j :: 0 <= j < i ==> s[j] != c
    decreases |s|
  {
    if |s| == 0 then 0
    else if s[0] == c then 0
    else 1 + IndexOf(s[1..], c)
  }

  /** A string cut at the first occurrence of a separator. */
  datatype Cut = Cut(before: string, after: Option<string>)

  function CutAt(s: string, c: char): (r: Cut)
    ensures c !in r.before
    ensures r.after.None? <==> c !in s
    ensures r.after.None? ==> r.before == s
    ensures r.after.Some? ==> s == r.before + [c] + r.after.value
  {
    var i := IndexOf(s, c);
    if i == |s| then Cut(s, None)
    else
      assert s == s[..i] + [c] + s[i + 1..];
      Cut(s[..i], Some(s[i + 1..]))
  }

  /** Cutting at a separator that first occurs right after `a`. */
  lemma CutAtFirst(a: string, c: char, b: string)
    requires c !in a
    ensures CutAt(a + [c] + b, c) == Cut(a, Some(b))
  {
    var s := a + [c] + b;
    var i := IndexOf(s, c);
    assert s[|a|] == c;
    assert s[..|a|] == a;
    assert s[|a| + 1..] == b;
  }

  /** `s.split(sep)`: the maximal pieces between separators. */
  function Split(s: string, sep: char): (parts: seq<string>)
    ensures |parts| > 0
    ensures forall i :: 0 <= i < |parts| ==> sep !in parts[i]
    decreases |s|
  {
    var cut := CutAt(s, sep);
    if cut.after.None? then [s] else [cut.before] + Split(cut.after.value, sep)
  }

  /** `parts.join(sep)`. */
  function Join(parts: seq<string>, sep: char): string
    requires |parts| > 0
    decreases |parts|
  {
    if |parts| == 1 then parts[0] else parts[0] + [sep] + Join(parts[1..], sep)
  }

  lemma JoinThree(a: string, b: string, c: string, sep: char)
    ensures Join([a, b, c], sep) == a + [sep] + b + [sep] + c
  {
    assert [a, b, c][1..] == [b, c];
    assert [b, c][1..] == [c];
    assert Join([b, c], sep) == b + [sep] + c;
    assert Join([a, b, c], sep) == a + [sep] + (b + [sep] + c);
  }

  lemma JoinFour(a: string, b: string, c: string, d: string, sep: char)
    ensures Join([a, b, c, d], sep) == a + [sep] + b + [sep] + c + [sep] + d
  {
    assert [a, b, c, d][1..] == [b, c, d];
    JoinThree(b, c, d, sep);
    assert Join([a, b, c, d], sep) == a + [sep] + (b + [sep] + c + [sep] + d);
  }

  /** Splitting undoes joining whenever no piece holds the separator. */
  lemma {:induction false} SplitJoin(parts: seq<string>, sep: char)
    requires |parts| > 0
    requires forall i :: 0 <= i < |parts| ==> sep !in parts[i]
    ensures Split(Join(parts, sep), sep) == parts
    decreases |parts|
  {
    if |parts| > 1 {
      CutAtFirst(parts[0], sep, Join(parts[1..], sep));
      SplitJoin(parts[1..], sep);
      assert [parts[0]] + parts[1..] == parts;
    }
  }

  /** One `name=value` query parameter. A piece with no '=' has an empty value. */
  datatype Param = Param(name: string, value: string)

  function ToParam(piece: string): Param {
    var cut := CutAt(piece, '=');
    Param(cut.before, cut.after.GetOr(""))
  }

  /** The part of a URL before the first '?'. */
  function PathOf(url: string): string {
    CutAt(url, '?').before
  }

  /** The query parameters of a URL, in order: the text after the first '?',
      split at every '&', each piece read as `name=value`. */
  function QueryOf(url: string): seq<Param> {
    var cut := CutAt(url, '?');
    if cut.after.None? then []
    else
      var pieces := Split(cut.after.value, '&');
      seq(|pieces|, i requires 0 <= i < |pieces| => ToParam(pieces[i]))
  }

  /** Reading back a URL written as a path, a '?', and parameters joined by '&'. */
  lemma ReadUrl(path: string, pieces: seq<string>)
    requires '?' !in path
    requires |pieces| > 0
    requires forall i :: 0 <= i < |pieces| ==> '&' !in pieces[i]
    ensures PathOf(path + "?" + Join(pieces, '&')) == path
    ensures QueryOf(path + "?" + Join(pieces, '&'))
            == seq(|pieces|, i requires 0 <= i < |pieces| => ToParam(pieces[i]))
  {
    CutAtFirst(path, '?', Join(pieces, '&'));
    SplitJoin(pieces, '&');
  }

  /** `ReadUrl` for three parameters. */
  lemma ReadUrl3(path: string, a: string, b: string, c: string)
    requires '?' !in path && '&' !in a && '&' !in b && '&' !in c
    ensures PathOf(path + "?" + Join([a, b, c], '&')) == path
    ensures QueryOf(path + "?" + Join([a, b, c], '&')) == [ToParam(a), ToParam(b), ToParam(c)]
  {
    ReadUrl(path, [a, b, c]);
  }

  /** `ReadUrl` for four parameters. */
  lemma ReadUrl4(path: string, a: string, b: string, c: string, d: string)
    requires '?' !in path && '&' !in a && '&' !in b && '&' !in c && '&' !in d
    ensures PathOf(path + "?" + Join([a, b, c, d], '&')) == path
    ensures QueryOf(path + "?" + Join([a, b, c, d], '&'))
            == [ToParam(a), ToParam(b), ToParam(c), ToParam(d)]
  {
    ReadUrl(path, [a, b, c, d]);
  }

  /** The text of one query parameter. */
  function Piece(name: string, value: string): string {
    name + "=" + value
  }

  /** A piece reads back as its parameter, and holds no '&' of its own, when
      the name has neither '=' nor '&' and the value has no '&'. */
  lemma ReadPiece(name: string, value: string)
    requires '=' !in name && '&' !in name && '&' !in value
    ensures ToParam(Piece(name, value)) == Param(name, value)
    ensures '&' !in Piece(name, value)
  {
    CutAtFirst(name, '=', value);
  }
}
